=== FILE: README.md ===
# wc-datepicker date engine in Dafny

A model of the date navigation and selection engine of the `wc-datepicker` web
component (`WCDatepicker`), with proofs about it. The component shows one month as a
grid of whole weeks, moves a focused "current date" with the keyboard while skipping
dates the `disableDate` callback rejects, and selects one date or a two-date range. It
announces changes through two events: `selectDate`, carrying ISO `YYYY-MM-DD` strings,
and `changeMonth`, carrying a 1-based month, the year and the day.

The model is a set of pure functions over immutable data:

- `DateMath` (`date_math.dfy`): calendar dates `Date(year, month 0-11, day)` and a day
  number `Ord`, which stands for `getTime()` when two dates are compared. It also holds
  the date helpers the component imports: next and previous day, add and subtract
  days, first and last of month, and next and previous month or year with the day
  clamped.
- `IsoDate` (`iso_date.dfy`): the ISO date string of a date, and a parser that reads
  it back.
- `Navigation` (`navigation.dfy`): `getAvailableDate`. This is the raw target of a
  move followed by the search loop past disabled dates, with its range test. The test
  has two readings. `AsWritten` is the code as it stands. `Corrected` wraps the month
  from January back to December and from December on to January.
- `CalendarGrid` (`calendar_grid.dfy`): the padded days of the month and
  `getCalendarRows`.
- `Picker` (`picker.dfy`): the component as a state machine. A `State` holds the
  properties, `currentDate`, `value`, `hoveredDate` and the pending-focus flag. Every
  handler and watcher returns the next state and the events it emitted, in order.
  `Dispatch` routes one input to its handler. The keyboard handler and the month select
  take the reading (`AsWritten` or `Corrected`) as a parameter, so every property of
  them is stated for the code as it stands and for the corrected code alike.
- `Scenarios` (`scenarios.dfy`): the interaction sequences of the component's test
  suite, stated for the as-written reading, and the two discrepancy inputs under both
  readings, each stated as a lemma. Where the test performs several steps in a row,
  each lemma starts from the state the previous one ends in.

Stencil runs a `@Watch` handler at once when the component assigns the watched
property. So the model's `AssignValue` sets `value` and runs `watchValue` in the same
step, and a completed range shows its start (or its end, when
`goToRangeStartOnSelect` is off). "Today", the dates parsed from cell attributes and
the `disableDate` callback are parameters.

## Model

| member | source | states |
|---|---|---|
| DateMath.DaysInMonth | src/components/wc-datepicker/wc-datepicker.tsx:453-454 | a month has 28 to 31 days; February has 29 exactly in a leap year and 28 otherwise |
| DateMath.DayAfter | src/components/wc-datepicker/wc-datepicker.tsx:325-327 | the next day is a valid date whose day number is one more |
| DateMath.DayBefore | src/components/wc-datepicker/wc-datepicker.tsx:322-324 | the previous day is a valid date whose day number is one less |
| DateMath.DayAfterBeforeInverse | src/components/wc-datepicker/wc-datepicker.tsx:322-327 | next day and previous day undo each other |
| DateMath.AddDays | src/components/wc-datepicker/wc-datepicker.tsx:331-333 | adding n days gives a valid date n day numbers later |
| DateMath.SubDays | src/components/wc-datepicker/wc-datepicker.tsx:328-330 | subtracting n days gives a valid date n day numbers earlier |
| DateMath.AddSubRoundTrip | src/components/wc-datepicker/wc-datepicker.tsx:328-333 | adding and subtracting the same number of days undo each other |
| DateMath.OrdInjective | src/components/wc-datepicker/wc-datepicker.tsx:290 | two valid dates with the same time value are the same date |
| DateMath.LexBeforeOrd | src/components/wc-datepicker/wc-datepicker.tsx:278 | comparing time values is the same as comparing year, then month, then day |
| DateMath.InRange | src/components/wc-datepicker/wc-datepicker.tsx:390-393 | a date is in the range exactly when it is neither before its start nor after its end in calendar order |
| DateMath.SameDay | src/components/wc-datepicker/wc-datepicker.tsx:588 | two dates are the same day exactly when they are equal |
| DateMath.FirstDayOfMonth | src/components/wc-datepicker/wc-datepicker.tsx:334-336 | the first of the month is a valid date in the same year and month |
| DateMath.LastDayOfMonth | src/components/wc-datepicker/wc-datepicker.tsx:337-339 | the last of the month is a valid date in the same month; in February it is the 29th exactly in leap years |
| DateMath.MonthSpan | src/components/wc-datepicker/wc-datepicker.tsx:334-339 | every day of a month lies between its first and its last day |
| DateMath.MonthAfter | src/components/wc-datepicker/wc-datepicker.tsx:343-345 | the next month is one month later, with the day clamped to that month's length |
| DateMath.MonthBefore | src/components/wc-datepicker/wc-datepicker.tsx:340-342 | the previous month is one month earlier, with the day clamped to that month's length |
| DateMath.YearAfter | src/components/wc-datepicker/wc-datepicker.tsx:349-351 | the next year keeps the month and clamps the day, so 29 February becomes 28 February |
| DateMath.YearBefore | src/components/wc-datepicker/wc-datepicker.tsx:346-348 | the previous year keeps the month and clamps the day |
| DateMath.MonthStepsRoundTrip | src/components/wc-datepicker/wc-datepicker.tsx:340-345 | for a day every month has, a month forward then back (or back then forward) returns to the same date |
| DateMath.YearStepsRoundTrip | src/components/wc-datepicker/wc-datepicker.tsx:346-351 | a year forward then back returns to the same date, for every day but 29 February |
| IsoDate.Iso | src/components/wc-datepicker/wc-datepicker.tsx:282-285 | a date with a four-digit year prints as ten characters, with dashes at positions 4 and 7 |
| IsoDate.ParseIso | src/components/wc-datepicker/wc-datepicker.tsx:443 | reading a cell's date attribute yields only valid dates with four-digit years |
| IsoDate.IsoRoundTrip | src/components/wc-datepicker/wc-datepicker.tsx:295 | the string `selectDate` carries reads back to the selected date |
| IsoDate.IsoInjective | src/components/wc-datepicker/wc-datepicker.tsx:282-285 | distinct dates give distinct strings, and equal strings mean the same date |
| Navigation.RawTarget | src/components/wc-datepicker/wc-datepicker.tsx:321-352 | day and week moves shift the day number by their stride; first and last of month stay in the month; month moves shift the month index by one; year moves keep the month |
| Navigation.Advance | src/components/wc-datepicker/wc-datepicker.tsx:355-374 | from a disabled candidate the search steps one day back for previous-day and last-of-month, a week for week moves, and one day forward otherwise |
| Navigation.MonthBound | src/components/wc-datepicker/wc-datepicker.tsx:383-388 | corrected, a month move is bounded by the month of the month step; as written, "previous month" from January and "next month" from December give a number outside 0 to 11, and only those |
| Navigation.OutOfRange | src/components/wc-datepicker/wc-datepicker.tsx:376-395 | a day move leaves the range exactly beyond `maxSearchDays` days either side; every other move leaves it exactly outside the raw target's month, under both readings, except that as written every candidate of "previous month" from January and "next month" from December is out of range |
| Navigation.Search | src/components/wc-datepicker/wc-datepicker.tsx:354-402 | the loop ends on an enabled candidate that passed the range test, or gives up and returns the original date |
| Navigation.AvailableDate | src/components/wc-datepicker/wc-datepicker.tsx:304-403 | the result is the original date or an enabled date; an enabled raw target is returned as is; day moves stay within maxSearchDays; month-bounded moves stay in the bounding month |
| Navigation.Walk | src/components/wc-datepicker/wc-datepicker.tsx:354-374 | the candidates the loop visits: the raw target, then one step at a time |
| Navigation.SearchFound | src/components/wc-datepicker/wc-datepicker.tsx:354-402 | along a chain of disabled in-range candidates, the search returns the first enabled one |
| Navigation.SearchAbandoned | src/components/wc-datepicker/wc-datepicker.tsx:376-400 | along a chain of disabled candidates, the first step out of range returns the original date |
| Navigation.FindsFirstEnabledCandidate | src/components/wc-datepicker/wc-datepicker.tsx:354-402 | when the first k candidates are disabled and the k-th is enabled and in range, that candidate is the answer |
| Navigation.GivesUpOutsideRange | src/components/wc-datepicker/wc-datepicker.tsx:376-400 | when all candidates before the k-th are disabled and the k-th leaves the range, the focus stays on the original date |
| Navigation.CorrectedBoundIsTargetMonth | src/components/wc-datepicker/wc-datepicker.tsx:383-388 | with the month wrapped, a month move is bounded by the raw target's own month |
| Navigation.AsWrittenBoundMissesWrap | src/components/wc-datepicker/wc-datepicker.tsx:383-388 | as written, the bound differs from the target's month exactly for "previous month" from January and "next month" from December |
| Navigation.AsWrittenWrapGivesUp | src/components/wc-datepicker/wc-datepicker.tsx:383-388 | as written, a disabled target in those two cases ends the search at once on the original date |
| Navigation.SearchVariantsAgree | src/components/wc-datepicker/wc-datepicker.tsx:354-396 | when both readings give the same bound, both loops return the same date from any candidate |
| Navigation.VariantsAgreeAwayFromWrap | src/components/wc-datepicker/wc-datepicker.tsx:376-395 | apart from the two wrapping moves, both readings find the same date |
| CalendarGrid.Anchor | src/components/wc-datepicker/wc-datepicker.tsx:182 | the anchor is 1 to 7, and its weekday is `firstDayOfWeek` |
| CalendarGrid.Leading | src/components/wc-datepicker/wc-datepicker.tsx:179-183 | fewer than seven days of the previous month come before the first |
| CalendarGrid.Trailing | src/components/wc-datepicker/wc-datepicker.tsx:179-183 | fewer than seven days of the next month come after the last |
| CalendarGrid.DaysOfMonth | src/components/wc-datepicker/wc-datepicker.tsx:179-183 | exactly leading + month length + trailing consecutive valid days, 28 to 42 of them in whole weeks, starting on the first weekday and reaching the first of the month after the leading days |
| CalendarGrid.MonthDayInGrid | src/components/wc-datepicker/wc-datepicker.tsx:179-183 | day k of the month sits at position leading + k - 1 |
| CalendarGrid.WholeWeeks | src/components/wc-datepicker/wc-datepicker.tsx:179-183 | leading days, the month and trailing days make four to six whole weeks |
| CalendarGrid.Chunk | src/components/wc-datepicker/wc-datepicker.tsx:185-190 | the rows concatenate back to the input; every row but the last has seven days; with a multiple of seven, all rows have seven |
| CalendarGrid.CalendarRows | src/components/wc-datepicker/wc-datepicker.tsx:178-193 | four to six rows of seven days that concatenate to exactly the padded days of the month; each row starts on the configured first day of the week; every day of the month appears |
| Picker.WatchValue | src/components/wc-datepicker/wc-datepicker.tsx:135-149 | an unset value leaves the display; a date shows that date; a range shows its start, or its second date when goToRangeStartOnSelect is off |
| Picker.AssignValue | src/components/wc-datepicker/wc-datepicker.tsx:135-149 | assigning the value runs its watcher at once: an unset value keeps the display, a date is shown, a range shows its start or, with goToRangeStartOnSelect off, its second date; properties, hover and the pending focus move are kept |
| Picker.SetValue | src/components/wc-datepicker/wc-datepicker.tsx:135-149 | setting the value from outside fails exactly for an empty array; otherwise the value is stored and the display moves exactly as for the component's own assignment |
| Picker.SetRange | src/components/wc-datepicker/wc-datepicker.tsx:122-126 | changing `range` drops the value and emits an empty selection; setting the same value changes nothing |
| Picker.SetStartDate | src/components/wc-datepicker/wc-datepicker.tsx:128-133 | the display moves to the start date, or to today when there is none, and nothing else changes |
| Picker.Clear | src/components/wc-datepicker/wc-datepicker.tsx:425-428 | the value is dropped and an empty selection is emitted |
| Picker.UpdateCurrentDate | src/components/wc-datepicker/wc-datepicker.tsx:236-265 | years outside 0 to 9999 change nothing; otherwise the date is shown, `changeMonth` fires once exactly when the month or year changes, and a focus move is left pending only for keyboard moves that change the month |
| Picker.UpdateCurrentDateIdempotent | src/components/wc-datepicker/wc-datepicker.tsx:236-265 | committing the same date twice: the second commit changes nothing and emits nothing |
| Picker.CommitEvents | src/components/wc-datepicker/wc-datepicker.tsx:244-258 | committing emits at most one event, a `changeMonth` with the new date exactly when its month differs and its year is in range |
| Picker.RangeStart | src/components/wc-datepicker/wc-datepicker.tsx:273-276 | a selection continues from the first date of an array with neither zero nor two elements |
| Picker.RangeValue | src/components/wc-datepicker/wc-datepicker.tsx:272-280 | the new range is the clicked date alone, or the start and the clicked date in ascending order |
| Picker.IsoAll | src/components/wc-datepicker/wc-datepicker.tsx:282-285 | the strings of a range, element by element |
| Picker.OnSelectDate | src/components/wc-datepicker/wc-datepicker.tsx:267-297 | disabled dates are ignored; range mode stores and announces the new range; single mode ignores the selected date and an array value, and otherwise selects, shows and announces the date |
| Picker.OnSelectDateWellFormed | src/components/wc-datepicker/wc-datepicker.tsx:267-297 | selecting keeps every stored date valid |
| Picker.RangeSelectionPair | src/components/wc-datepicker/wc-datepicker.tsx:272-280 | two selections from no range start give the two dates in ascending order |
| Picker.RangeSelectionOrderIrrelevant | src/components/wc-datepicker/wc-datepicker.tsx:272-280 | the same two selections in either order give the same range |
| Picker.RangeRestartsAfterPair | src/components/wc-datepicker/wc-datepicker.tsx:273-276 | after a complete range, the next selection starts a new one-date range and announces it |
| Picker.SingleSelectionIdempotent | src/components/wc-datepicker/wc-datepicker.tsx:289-292 | in single mode, selecting the same date again changes nothing and emits nothing |
| Picker.RangePayloadRoundTrip | src/components/wc-datepicker/wc-datepicker.tsx:282-288 | the strings of a range event read back, one by one, to the stored range |
| Picker.RangeSelectionShowsChosenEnd | src/components/wc-datepicker/wc-datepicker.tsx:141-145 | a completed range shows its start, or its end when goToRangeStartOnSelect is off |
| Picker.ShowNextMonth | src/components/wc-datepicker/wc-datepicker.tsx:405-407 | the next-month button changes only the displayed date: one month index later, the day clamped to that month, announced by exactly one `changeMonth` with that date; a target year outside 0 to 9999 changes nothing |
| Picker.ShowPreviousMonth | src/components/wc-datepicker/wc-datepicker.tsx:413-415 | the previous-month button changes only the displayed date: one month index earlier, the day clamped to that month, announced by exactly one `changeMonth` with that date; a target year outside 0 to 9999 changes nothing |
| Picker.ShowNextYear | src/components/wc-datepicker/wc-datepicker.tsx:409-411 | the next-year button changes only the displayed date: the next year, the same month, the day clamped, announced by exactly one `changeMonth` with that date; a target year outside 0 to 9999 changes nothing |
| Picker.ShowPreviousYear | src/components/wc-datepicker/wc-datepicker.tsx:417-419 | the previous-year button changes only the displayed date: the previous year, the same month, the day clamped, announced by exactly one `changeMonth` with that date; a target year outside 0 to 9999 changes nothing |
| Picker.ShowToday | src/components/wc-datepicker/wc-datepicker.tsx:421-423 | the today button changes only the displayed date, to today, announcing it when the month changes; a year outside 0 to 9999 changes nothing |
| Picker.TodayButtonIdempotent | src/components/wc-datepicker/wc-datepicker.tsx:421-423 | pressing the today button a second time changes nothing and emits nothing |
| Picker.MonthSteppersRoundTrip | src/components/wc-datepicker/wc-datepicker.tsx:405-415 | next month then previous month returns to the same date, for days up to the 28th |
| Picker.YearSteppersRoundTrip | src/components/wc-datepicker/wc-datepicker.tsx:409-419 | next year then previous year returns to the same date, except from 29 February |
| Picker.Clamped | src/components/wc-datepicker/wc-datepicker.tsx:453-454 | the day is clamped to the length of the target month |
| Picker.ConstructorYear | src/components/wc-datepicker/wc-datepicker.tsx:452 | the three-argument `Date` constructor reads years 0 to 99 as 1900 to 1999 |
| Picker.MonthSelectTargetAsWritten | src/components/wc-datepicker/wc-datepicker.tsx:452-459 | as written, the chosen month is reached in the constructor's year |
| Picker.MonthSelectTarget | src/components/wc-datepicker/wc-datepicker.tsx:449-459 | the chosen month of the same year, with the day clamped |
| Picker.MonthSelectReadingsDiffer | src/components/wc-datepicker/wc-datepicker.tsx:452-459 | the two readings differ exactly for the years 0 to 99 |
| Picker.MonthSelectDate | src/components/wc-datepicker/wc-datepicker.tsx:449-459 | the month select's target is a valid date in the chosen month with the day clamped; its year is the displayed one when corrected and the constructor's reading of it as written |
| Picker.OnMonthSelect | src/components/wc-datepicker/wc-datepicker.tsx:449-462 | under either reading, choosing a month commits that reading's target, changing only the displayed date and announcing it when the month changes; a displayed year outside 0 to 9999 changes nothing |
| Picker.MonthSelectRoundTrip | src/components/wc-datepicker/wc-datepicker.tsx:449-462 | for days up to the 28th, choosing another month and then the original one returns to the same date when corrected; as written it returns to the same day and month, with a year from 0 to 99 turned into 1900 to 1999 |
| Picker.SanitizeYear | src/components/wc-datepicker/wc-datepicker.tsx:465-477 | non-numeric input gives today's year; numbers are clamped to 0 to 9999 |
| Picker.SanitizeYearIdempotent | src/components/wc-datepicker/wc-datepicker.tsx:468-477 | the rewritten input sanitises to itself |
| Picker.OnYearSelect | src/components/wc-datepicker/wc-datepicker.tsx:464-492 | entering a year changes only the displayed date, to the same month of the sanitised year with the day clamped, announcing it when the month changes; a sanitised year outside 0 to 9999 changes nothing |
| Picker.YearSelectRoundTrip | src/components/wc-datepicker/wc-datepicker.tsx:464-492 | entering another year and then the original one returns to the same date, except from 29 February |
| Picker.OnClick | src/components/wc-datepicker/wc-datepicker.tsx:430-447 | a disabled picker or a click outside a cell changes nothing; otherwise the cell's date is committed and then selected, with the events in that order |
| Picker.ClickOnDisabledDate | src/components/wc-datepicker/wc-datepicker.tsx:443-446 | clicking a disabled date still shows its month but leaves the value alone and emits no selection |
| Picker.ClickSelectsSingle | src/components/wc-datepicker/wc-datepicker.tsx:443-446 | in single mode, a click on another enabled date selects and shows it, and emits any month change before the selection |
| Picker.ClickSelectsRange | src/components/wc-datepicker/wc-datepicker.tsx:443-446 | in range mode, a click on an enabled date stores the new range and announces its strings after any month change |
| Picker.KeyDirection | src/components/wc-datepicker/wc-datepicker.tsx:499-562 | Space, Enter and unhandled keys have no direction, every other key does, and exactly the four arrow keys move by a bounded number of days |
| Picker.OnKeyDown | src/components/wc-datepicker/wc-datepicker.tsx:494-567 | under either reading: a disabled picker ignores keys; navigation keys commit the available date with focus; Space and Enter select the current date; other keys do nothing |
| Picker.KeyboardNeverFocusesDisabled | src/components/wc-datepicker/wc-datepicker.tsx:499-562 | under either reading, from an enabled date a navigation key never moves the focus onto a disabled date |
| Picker.KeyMovesToRawTarget | src/components/wc-datepicker/wc-datepicker.tsx:499-562 | under either reading, with nothing disabled a navigation key commits its raw target |
| Picker.ArrowKeysRoundTrip | src/components/wc-datepicker/wc-datepicker.tsx:499-510 | under either reading, with nothing disabled ArrowRight then ArrowLeft returns to the same date |
| Picker.KeyReadingsAgreeAwayFromWrap | src/components/wc-datepicker/wc-datepicker.tsx:523-550 | the code as written and the corrected code handle every key alike, except PageUp in January and PageDown in December |
| Picker.OnMouseEnter | src/components/wc-datepicker/wc-datepicker.tsx:569-579 | hovering records the date, unless the picker is disabled |
| Picker.OnMouseLeave | src/components/wc-datepicker/wc-datepicker.tsx:581-583 | leaving clears the hover and changes nothing else |
| Picker.OnFocus | src/components/wc-datepicker/wc-datepicker.tsx:585-591 | focusing the current cell does nothing; focusing another commits its date |
| Picker.DidRender | src/components/wc-datepicker/wc-datepicker.tsx:151-156 | a pending focus move focuses the current date and clears the flag; otherwise nothing is focused |
| Picker.FocusMovesOnce | src/components/wc-datepicker/wc-datepicker.tsx:151-156 | a second render focuses nothing |
| Picker.Dispatch | src/components/wc-datepicker/wc-datepicker.tsx:430-591 | under either reading, every input is handled except setting the value to an empty array; a disabled picker ignores clicks, keys and hovers |
| Picker.ClickKeepsWellFormed | src/components/wc-datepicker/wc-datepicker.tsx:430-447 | a click, handled or ignored, keeps all stored dates valid |
| Picker.KeyKeepsWellFormed | src/components/wc-datepicker/wc-datepicker.tsx:494-567 | a key press, under either reading, keeps all stored dates valid |
| Picker.DispatchPreservesWellFormed | src/components/wc-datepicker/wc-datepicker.tsx:430-591 | under either reading, every handled input keeps all stored dates valid |
| Scenarios.KeyboardWalkDays | src/components/wc-datepicker/wc-datepicker.spec.tsx:182-196 | from 1 January 2022, ArrowRight twice reaches the 2nd and then the 3rd |
| Scenarios.KeyboardWalkWeeks | src/components/wc-datepicker/wc-datepicker.spec.tsx:198-212 | ArrowDown from the 3rd reaches the 10th; ArrowLeft reaches the 9th |
| Scenarios.KeyboardWalkWeekUp | src/components/wc-datepicker/wc-datepicker.spec.tsx:214-220 | ArrowUp from the 9th reaches the 2nd |
| Scenarios.KeyboardEndHome | src/components/wc-datepicker/wc-datepicker.spec.tsx:222-236 | End reaches 31 January and Home reaches 1 January, without events |
| Scenarios.KeyboardPageMonths | src/components/wc-datepicker/wc-datepicker.spec.tsx:238-252 | PageDown reaches 1 February, announcing it and leaving a focus move pending; the render focuses 1 February; PageUp then returns to 1 January, announcing it |
| Scenarios.GridOfJanuary2022 | src/components/wc-datepicker/wc-datepicker.spec.tsx:128-144 | the first cell of January 2022 is 26 December 2021 |
| Scenarios.GridOfDecember2021 | src/components/wc-datepicker/wc-datepicker.spec.tsx:153-161 | the first cell of December 2021 is 28 November 2021 |
| Scenarios.ClickFirstCell | src/components/wc-datepicker/wc-datepicker.spec.tsx:128-144 | clicking that cell announces December 2021 and selects "2021-12-26" |
| Scenarios.SelectNextDay | src/components/wc-datepicker/wc-datepicker.spec.tsx:132-145 | from 26 December 2021 selected, ArrowRight then Space selects "2021-12-27" |
| Scenarios.WeekIntoNewYear | src/components/wc-datepicker/wc-datepicker.spec.tsx:135 | ArrowDown from 27 December 2021 reaches 3 January 2022 and announces January |
| Scenarios.ArrowDownAcrossYearEnd | src/components/wc-datepicker/wc-datepicker.tsx:517-522 | for any year, ArrowDown from 27 December reaches 3 January of the next year, announces January and leaves a focus move pending |
| Scenarios.ArrowUpAcrossYearEnd | src/components/wc-datepicker/wc-datepicker.tsx:511-516 | for any year, ArrowUp from 3 January returns to 27 December of the year before, announces December and leaves a focus move pending |
| Scenarios.EnterSelectsNewYearDate | src/components/wc-datepicker/wc-datepicker.spec.tsx:136-146 | Enter on 3 January 2022, with the focus move still pending, selects "2022-01-03" |
| Scenarios.WeekBackIntoOldYear | src/components/wc-datepicker/wc-datepicker.spec.tsx:138 | ArrowUp from 3 January 2022 returns to 27 December 2021 and announces December |
| Scenarios.EnterSelectsDecember27 | src/components/wc-datepicker/wc-datepicker.spec.tsx:139-147 | Enter then selects "2021-12-27" |
| Scenarios.SelectPreviousDay | src/components/wc-datepicker/wc-datepicker.spec.tsx:141-148 | ArrowLeft then Enter selects "2021-12-26" |
| Scenarios.RangeSwitchClears | src/components/wc-datepicker/wc-datepicker.spec.tsx:255-271 | switching to range mode drops the value and emits an empty selection |
| Scenarios.SelectionSwitchesToRange | src/components/wc-datepicker/wc-datepicker.spec.tsx:148-160 | where the keyboard part of that test ends, switching to range mode clears the 26 December value with an empty selection, and the next render focuses 26 December |
| Scenarios.RangeClickStarts | src/components/wc-datepicker/wc-datepicker.spec.tsx:153-161 | in range mode, clicking 28 November 2021 announces ["2021-11-28"] |
| Scenarios.RangeKeyCompletes | src/components/wc-datepicker/wc-datepicker.spec.tsx:157-162 | ArrowRight from 28 November reaches the 29th without events; Space there completes ["2021-11-28", "2021-11-29"] and shows the start again |
| Scenarios.GoToRangeStartOnSelect | src/components/wc-datepicker/wc-datepicker.spec.tsx:566-589 | the range [1 January, 1 March 2022] shows January, or March with the property off |
| Scenarios.MonthChanges | src/components/wc-datepicker/wc-datepicker.spec.tsx:299-348 | choosing May, then previous and next month, announce May, April and May 2022 |
| Scenarios.MonthSelectClamps | src/components/wc-datepicker/wc-datepicker.spec.tsx:350-376 | choosing February from 31 January 2022 announces 28 February |
| Scenarios.YearInputClamps | src/components/wc-datepicker/wc-datepicker.spec.tsx:378-401 | entering 2021 from 29 February 2020 announces 28 February 2021 |
| Scenarios.YearChanges | src/components/wc-datepicker/wc-datepicker.spec.tsx:403-457 | entering 1989, then previous and next year, announce January 1989, 1988 and 1989 |
| Scenarios.YearInputResets | src/components/wc-datepicker/wc-datepicker.spec.tsx:540-564 | 100000 is reset to 9999 and -1 to 0 |
| Scenarios.TodayJumps | src/components/wc-datepicker/wc-datepicker.spec.tsx:459-482 | starting on 1 January 1989, the today button shows the year of today |
| Scenarios.ClearAfterSelection | src/components/wc-datepicker/wc-datepicker.spec.tsx:484-509 | clearing after a selection emits an empty selection |
| Scenarios.DisabledPickerIgnoresInput | src/components/wc-datepicker/wc-datepicker.spec.tsx:511-538 | a disabled picker ignores the click, ArrowRight and Space |
| Scenarios.DisabledDateNotSelected | src/components/wc-datepicker/wc-datepicker.spec.tsx:273-297 | clicking the disabled 1 January 2022 emits nothing |
| Scenarios.HoverAndLeave | src/components/wc-datepicker/wc-datepicker.spec.tsx:591-646 | hovering 5 January records it, leaving clears it, and a disabled picker records nothing |
| Scenarios.PreviousMonthFromJanuaryAsWritten | src/components/wc-datepicker/wc-datepicker.tsx:383-385 | as written, PageUp from 15 January 2022 with 15 December 2021 disabled stays on 15 January and emits nothing |
| Scenarios.PreviousMonthFromJanuaryCorrected | src/components/wc-datepicker/wc-datepicker.tsx:383-385 | corrected, the same PageUp reaches 16 December 2021, announces December and leaves a focus move pending |
| Scenarios.MonthSelectInYear50 | src/components/wc-datepicker/wc-datepicker.tsx:452-459 | choosing June while showing 10 March of year 50 commits and announces 10 June 1950 as written, and 10 June of year 50 when corrected |

## Left out

- Rendering is not modelled: the JSX, CSS class names, aria attributes, labels, the
  weekday header (`getWeekDays`, `Intl`), `getTitle` and locale handling. These are
  presentation, not date logic.
- DOM focus is not modelled. `focusDate` and the focus part of `updateCurrentDate` are
  represented only by the pending-focus flag and by the date `DidRender` focuses.
- Event objects are not modelled. A click carries the parsed date of its cell, or
  `None` when it hit no cell. The month select carries its option number. The year
  input carries its numeric reading: a number, or not a number.
- Time zones are not modelled. `removeTimezoneOffset` and the time of day are absent:
  a date is a calendar day. `onFocus` parses without removing the offset; the model
  treats its date like every other cell's.
- The utility module `src/utils/utils` is not part of this model as text. Its helpers
  are defined in `DateMath` from how the component uses them: next and previous day,
  add and subtract days, first and last of month, and month and year steps with the
  day clamped to the target month's length.
- Picker.SetValue: the component sets `currentDate` to `undefined` when `value` is
  set to an empty array, and no state of the model can hold that. This call yields
  `None` instead.
- The watchers fire only when a property really changes. `SetRange` models this.
  `SetValue` and `SetStartDate` cannot tell a repeated assignment from a change: they
  also apply when the new value equals the old one. After the user has moved the
  display, assigning the same `startDate` again brings the display back to it in the
  model, while the component leaves it where it is; the same holds for `value`.
- Picker.SetRange: `range` starts out undefined, so the component's first assignment of
  `false` is a change that drops the value and emits an empty selection. The model
  starts from `false` and treats that assignment as a no-op.
- Picker.SetStartDate: a non-empty `startDate` that does not parse gives the component
  an Invalid Date to display. The model's start date is a valid date or none, so that
  input cannot be expressed.
- Picker.OnSelectDate: in single mode with an array value, the code calls `getTime` on
  an array and throws. The model treats that as "nothing changes".
- Navigation.AvailableDate: `maxSearchDays` is a natural number. The property's
  default is 365, and a negative horizon makes the range test fail at the first step
  anyway.
- The JavaScript `Date` range (about ±275,760 years) and integer precision are not
  modelled: years are unbounded integers. `updateCurrentDate` still rejects years
  outside 0 to 9999, exactly as the code does.
- IsoDate.IsoRoundTrip: proved only for years 0 to 9999. The expanded six-digit form
  that years outside that range print with is written, but not parsed back.
- `firstDayOfWeek` is taken to be 0 to 6, the weekday numbers of `Date.getDay()`. The
  component does not check the property: it maps 0 to 7 and passes every other number
  through, so other values are not modelled.
- `showToday` and `watchStartDate` take "today" as a parameter rather than reading the
  clock. `onYearSelect` takes today's year the same way.

## Findings

| source | as written | input that shows it | evidently intended | confidence | as-written member | corrected member |
|---|---|---|---|---|---|---|
| src/components/wc-datepicker/wc-datepicker.tsx:383-388 | the range test of a month move compares the candidate's month with `date.getMonth() - 1` (or `+ 1`), which is -1 from January and 12 from December, so no candidate ever matches | PageUp on 15 January 2022 with 15 December 2021 disabled: the focus stays on 15 January | compare with the raw target's month, wrapping from 0 to 11 and from 11 to 0, so the search moves on to 16 December 2021 | likely; not executed | Scenarios.PreviousMonthFromJanuaryAsWritten | Scenarios.PreviousMonthFromJanuaryCorrected |
| src/components/wc-datepicker/wc-datepicker.tsx:452-459 | `onMonthSelect` builds the target with `new Date(year, month, day)`, which reads the years 0 to 99 as 1900 to 1999 | showing 10 March of year 50 and choosing June commits 10 June 1950 | keep the displayed year, as `onYearSelect` does with `setFullYear`, giving 10 June of year 50 | likely; not executed | Picker.MonthSelectTargetAsWritten | Picker.MonthSelectTarget |

The state machine runs either reading: the test-suite scenarios use the code as
written, and both findings are stated for each reading on the same state.
`Navigation.AsWrittenWrapGivesUp` proves the first discrepancy for every
input of that kind, and `Navigation.CorrectedBoundIsTargetMonth` states the intended
bound. `Picker.MonthSelectReadingsDiffer` proves the second for every year from 0 to
99. `Picker.KeyReadingsAgreeAwayFromWrap` proves that the keyboard handler is the same
under both readings except for the two wrapping moves.

=== FILE: calendar_grid.dfy ===
/**
  The month grid: the days of the displayed month padded with the neighbouring months'
  days to whole weeks starting on the configured first day of the week
  (`getDaysOfMonth(date, true, anchor)`), cut into rows of seven (`getCalendarRows`).

  The anchor is `firstDayOfWeek`, with 0 (Sunday) read as 7; in `Date.getDay()`
  numbering the first column is therefore weekday `anchor % 7`.
 */
module CalendarGrid {
  import opened DateMath

  /** The column anchor: Sunday (0) anchors at 7, every other weekday at itself. */
  function Anchor(firstDayOfWeek: int): (a: int)
    requires 0 <= firstDayOfWeek <= 6
    ensures 1 <= a <= 7 && a % 7 == firstDayOfWeek
  {
    if firstDayOfWeek == 0 then 7 else firstDayOfWeek
  }

  /** `n` consecutive days starting at `start`. */
  function Consecutive(start: Date, n: nat): (r: seq<Date>)
    requires ValidDate(start)
    ensures |r| == n
    ensures forall i :: 0 <= i < n ==> ValidDate(r[i]) && Ord(r[i]) == Ord(start) + i
  {
    if n == 0 then [] else Consecutive(start, n - 1) + [AddDays(start, n - 1)]
  }

  /** Days of the preceding month shown before the first of the month. */
  function Leading(date: Date, anchor: int): (n: nat)
    requires ValidDate(date)
    ensures n < 7
  {
    (DayOfWeek(FirstDayOfMonth(date)) - anchor % 7) % 7
  }

  /** Days of the following month shown after the last of the month. */
  function Trailing(date: Date, anchor: int): (n: nat)
    requires ValidDate(date)
    ensures n < 7
  {
    (anchor % 7 + 6 - DayOfWeek(LastDayOfMonth(date))) % 7
  }

  lemma WeekdayOfLast(date: Date)
    requires ValidDate(date)
    ensures DayOfWeek(LastDayOfMonth(date))
            == (DayOfWeek(FirstDayOfMonth(date)) + DaysInMonth(date.year, date.month) - 1) % 7
  {
    var first, last := FirstDayOfMonth(date), LastDayOfMonth(date);
    var dim := DaysInMonth(date.year, date.month);
    assert Ord(last) + 5 == (Ord(first) + 5) + (dim - 1);
    ModShift(Ord(first) + 5, dim - 1);
  }

  lemma ModShift(a: int, b: int)
    ensures (a + b) % 7 == (a % 7 + b) % 7
  {
    var q := a / 7;
    assert a == 7 * q + a % 7;
  }

  /** Leading and trailing padding always complete a month of 28 to 31 days to four, five or six weeks. */
  lemma PadToWeeks(first: int, a: int, dim: int)
    requires 0 <= first < 7 && 0 <= a < 7 && 28 <= dim <= 31
    ensures var n := (first - a) % 7 + dim + (a + 6 - (first + dim - 1) % 7) % 7;
            n % 7 == 0 && 28 <= n <= 42
  {
    ModShift(first + dim - 1, 0);
  }

  /** `getDaysOfMonth(date, true, anchor)`: whole weeks covering the month of `date`. */
  function DaysOfMonth(date: Date, anchor: int): (days: seq<Date>)
    requires ValidDate(date) && 1 <= anchor <= 7
    ensures 28 <= |days| <= 42
    ensures |days| == Leading(date, anchor) + DaysInMonth(date.year, date.month) + Trailing(date, anchor)
    ensures ValidDate(days[0]) && Ord(days[0]) + Leading(date, anchor) == Ord(FirstDayOfMonth(date))
    ensures forall i :: 0 <= i < |days| ==> ValidDate(days[i]) && Ord(days[i]) == Ord(days[0]) + i
    ensures DayOfWeek(days[0]) == anchor % 7
    ensures |days| % 7 == 0
  {
    var lead := Leading(date, anchor);
    var n := lead + DaysInMonth(date.year, date.month) + Trailing(date, anchor);
    var start := SubDays(FirstDayOfMonth(date), lead);
    WholeWeeks(date, anchor);
    StartsOnAnchor(date, anchor);
    var days := Consecutive(start, n);
    assert days[0] == start by {
      OrdInjective(days[0], start);
    }
    days
  }

  /** The k-th day of the month sits in the grid right after the leading days. */
  lemma MonthDayInGrid(date: Date, anchor: int, k: int)
    requires ValidDate(date) && 1 <= anchor <= 7
    requires 1 <= k <= DaysInMonth(date.year, date.month)
    ensures DaysOfMonth(date, anchor)[Leading(date, anchor) + k - 1] == Date(date.year, date.month, k)
  {
    var days := DaysOfMonth(date, anchor);
    OrdWithinMonth(date, k);
    OrdInjective(days[Leading(date, anchor) + k - 1], Date(date.year, date.month, k));
  }

  lemma WholeWeeks(date: Date, anchor: int)
    requires ValidDate(date)
    ensures var n := Leading(date, anchor) + DaysInMonth(date.year, date.month) + Trailing(date, anchor);
            n % 7 == 0 && 28 <= n <= 42
  {
    var first := DayOfWeek(FirstDayOfMonth(date));
    var dim := DaysInMonth(date.year, date.month);
    var a := anchor % 7;
    var lead, trail := Leading(date, anchor), Trailing(date, anchor);
    assert lead == (first - a) % 7;
    assert trail == (a + 6 - (first + dim - 1) % 7) % 7 by {
      WeekdayOfLast(date);
    }
    PadToWeeks(first, a, dim);
  }

  lemma StartsOnAnchor(date: Date, anchor: int)
    requires ValidDate(date)
    ensures DayOfWeek(SubDays(FirstDayOfMonth(date), Leading(date, anchor))) == anchor % 7
  {
    var first := FirstDayOfMonth(date);
    var lead := Leading(date, anchor);
    ShiftBack(Ord(first) + 5, anchor % 7, lead);
  }

  /** Stepping back `(w - a) % 7` days from a day whose weekday is `w` lands on weekday `a`. */
  lemma ShiftBack(x: int, a: int, lead: int)
    requires 0 <= a < 7 && lead == (x % 7 - a) % 7
    ensures (x - lead) % 7 == a
  {
    ModShift(x, -lead);
  }

  lemma OrdWithinMonth(date: Date, k: int)
    requires ValidDate(date) && 1 <= k <= DaysInMonth(date.year, date.month)
    ensures ValidDate(Date(date.year, date.month, k))
    ensures Ord(Date(date.year, date.month, k)) == Ord(FirstDayOfMonth(date)) + k - 1
  {
  }

  /** Concatenation of the rows, in order. */
  function Flatten(rows: seq<seq<Date>>): seq<Date> {
    if rows == [] then [] else Flatten(rows[..|rows| - 1]) + rows[|rows| - 1]
  }

  /** The loop of `getCalendarRows`: consecutive slices of seven, the last one possibly shorter. */
  method Chunk(days: seq<Date>) returns (rows: seq<seq<Date>>)
    ensures Flatten(rows) == days
    ensures |rows| == (|days| + 6) / 7
    ensures forall r :: 0 <= r < |rows| ==> 1 <= |rows[r]| <= 7
    ensures forall r :: 0 <= r < |rows| - 1 ==> |rows[r]| == 7
    ensures |days| % 7 == 0 ==> forall r :: 0 <= r < |rows| ==> |rows[r]| == 7
  {
    rows := [];
    var i := 0;
    while i < |days|
      invariant i == 7 * |rows| && i <= |days| + 6
      invariant i <= |days| ==> Flatten(rows) == days[..i]
      invariant i > |days| ==> Flatten(rows) == days && |days| % 7 != 0
      invariant forall r :: 0 <= r < |rows| ==> rows[r] == days[7 * r .. Min(7 * r + 7, |days|)]
    {
      var row := days[i .. Min(i + 7, |days|)];
      assert Flatten(rows + [row]) == Flatten(rows) + row;
      rows := rows + [row];
      i := i + 7;
    }
  }

  /** `getCalendarRows()` for a displayed date and a `firstDayOfWeek` setting. */
  method CalendarRows(currentDate: Date, firstDayOfWeek: int) returns (rows: seq<seq<Date>>)
    requires ValidDate(currentDate) && 0 <= firstDayOfWeek <= 6
    ensures Flatten(rows) == DaysOfMonth(currentDate, Anchor(firstDayOfWeek))
    ensures 4 <= |rows| <= 6
    ensures forall r :: 0 <= r < |rows| ==> |rows[r]| == 7
    ensures forall r :: 0 <= r < |rows| ==> ValidDate(rows[r][0]) && DayOfWeek(rows[r][0]) == firstDayOfWeek
    ensures forall k :: 1 <= k <= DaysInMonth(currentDate.year, currentDate.month) ==>
              Date(currentDate.year, currentDate.month, k) in Flatten(rows)
  {
    var days := DaysOfMonth(currentDate, Anchor(firstDayOfWeek));
    rows := Chunk(days);
    forall r | 0 <= r < |rows|
      ensures ValidDate(rows[r][0]) && DayOfWeek(rows[r][0]) == firstDayOfWeek
    {
      RowStart(days, rows, r);
    }
    forall k | 1 <= k <= DaysInMonth(currentDate.year, currentDate.month)
      ensures Date(currentDate.year, currentDate.month, k) in Flatten(rows)
    {
      MonthDayInGrid(currentDate, Anchor(firstDayOfWeek), k);
      assert days[Leading(currentDate, Anchor(firstDayOfWeek)) + k - 1] == Date(currentDate.year, currentDate.month, k);
    }
  }

  lemma {:induction false} FlattenIndex(rows: seq<seq<Date>>, r: nat)
    requires forall i :: 0 <= i < |rows| ==> |rows[i]| == 7
    requires r < |rows|
    ensures |Flatten(rows)| == 7 * |rows|
    ensures Flatten(rows)[7 * r] == rows[r][0]
  {
    var last := |rows| - 1;
    FlattenLength(rows[..last]);
    if r < last {
      FlattenIndex(rows[..last], r);
    }
  }

  lemma {:induction false} FlattenLength(rows: seq<seq<Date>>)
    requires forall i :: 0 <= i < |rows| ==> |rows[i]| == 7
    ensures |Flatten(rows)| == 7 * |rows|
  {
    if rows != [] {
      FlattenLength(rows[..|rows| - 1]);
    }
  }

  lemma RowStart(days: seq<Date>, rows: seq<seq<Date>>, r: nat)
    requires |days| % 7 == 0 && 7 <= |days| && ValidDate(days[0])
    requires forall i :: 0 <= i < |days| ==> ValidDate(days[i]) && Ord(days[i]) == Ord(days[0]) + i
    requires Flatten(rows) == days && r < |rows|
    requires forall i :: 0 <= i < |rows| ==> |rows[i]| == 7
    ensures ValidDate(rows[r][0]) && DayOfWeek(rows[r][0]) == DayOfWeek(days[0])
  {
    FlattenIndex(rows, r);
    var d := days[7 * r];
    assert rows[r][0] == d;
    assert Ord(d) + 5 == (Ord(days[0]) + 5) + 7 * r;
    WholeWeeksLater(Ord(days[0]) + 5, r);
  }

  /** Whole weeks later falls on the same weekday. */
  lemma WholeWeeksLater(x: int, r: int)
    ensures (x + 7 * r) % 7 == x % 7
  {
    var q := x / 7;
    assert x + 7 * r == 7 * (q + r) + x % 7;
  }
}

=== FILE: date_math.dfy ===
/**
  Gregorian calendar arithmetic on day-precision dates.

  A `Date` is a (year, month, day) triple with a 0-based month, as JavaScript's
  `Date.getMonth()` reports it. The picker only ever holds dates that a JavaScript
  `Date` normalises to, so every operation here takes and returns `ValidDate`s.
  `Ord` numbers the days consecutively (proleptic Gregorian calendar, year 0 is a
  leap year); it plays the part of `Date.getTime()` for comparisons.
 */
module DateMath {

  datatype Date = Date(year: int, month: int, day: int)

  predicate IsLeapYear(year: int) {
    year % 4 == 0 && (year % 100 != 0 || year % 400 == 0)
  }

  function DaysInMonth(year: int, month: int): (n: int)
    requires 0 <= month < 12
    ensures 28 <= n <= 31
    ensures n == 29 <==> month == 1 && IsLeapYear(year)
    ensures n == 28 <==> month == 1 && !IsLeapYear(year)
  {
    if month == 1 then (if IsLeapYear(year) then 29 else 28)
    else if month == 3 || month == 5 || month == 8 || month == 10 then 30
    else 31
  }

  function DaysInYear(year: int): int {
    if IsLeapYear(year) then 366 else 365
  }

  predicate ValidDate(d: Date) {
    0 <= d.month < 12 && 1 <= d.day <= DaysInMonth(d.year, d.month)
  }

  /** Days in the years before `year`, counted from the start of year 0 (negative before it). */
  function DaysBeforeYear(year: int): int
    decreases if year >= 0 then year else -year
  {
    if year == 0 then 0
    else if year > 0 then DaysBeforeYear(year - 1) + DaysInYear(year - 1)
    else DaysBeforeYear(year + 1) - DaysInYear(year)
  }

  /** Days in the months of `year` before `month`. */
  function DaysBeforeMonth(year: int, month: int): int
    requires 0 <= month <= 12
  {
    var leap := if month >= 2 && IsLeapYear(year) then 1 else 0;
    leap +
    (if month == 0 then 0 else if month == 1 then 31 else if month == 2 then 59
     else if month == 3 then 90 else if month == 4 then 120 else if month == 5 then 151
     else if month == 6 then 181 else if month == 7 then 212 else if month == 8 then 243
     else if month == 9 then 273 else if month == 10 then 304 else if month == 11 then 334
     else 365)
  }

  /** Day number of `d`; 0000-01-01 is day 1. Consecutive days have consecutive numbers. */
  function Ord(d: Date): int
    requires 0 <= d.month < 12
  {
    DaysBeforeYear(d.year) + DaysBeforeMonth(d.year, d.month) + d.day
  }

  /** Day of the week as `Date.getDay()` reports it: 0 is Sunday, 6 is Saturday. */
  function DayOfWeek(d: Date): (w: int)
    requires 0 <= d.month < 12
    ensures 0 <= w < 7
  {
    (Ord(d) + 5) % 7
  }

  /** `a` is strictly earlier than `b`, as `a < b` on two JavaScript dates. */
  predicate Before(a: Date, b: Date)
    requires ValidDate(a) && ValidDate(b)
  {
    Ord(a) < Ord(b)
  }

  /** `isDateInRange`: `d` lies in the inclusive range [from, to], compared by time value. */
  function InRange(d: Date, from: Date, to: Date): (r: bool)
    requires ValidDate(d) && ValidDate(from) && ValidDate(to)
    ensures r <==> !LexBefore(d, from) && !LexBefore(to, d)
  {
    LexBeforeOrd(d, from);
    LexBeforeOrd(to, d);
    Ord(from) <= Ord(d) <= Ord(to)
  }

  /** `isSameDay`: two dates denote the same day (`getTime()` equality at midnight). */
  function SameDay(a: Date, b: Date): (r: bool)
    requires ValidDate(a) && ValidDate(b)
    ensures r <==> a == b
  {
    assert Ord(a) == Ord(b) ==> a == b by {
      if Ord(a) == Ord(b) {
        OrdInjective(a, b);
      }
    }
    Ord(a) == Ord(b)
  }

  /** Lexicographic order on (year, month, day): the calendar's own reading of "earlier". */
  predicate LexBefore(a: Date, b: Date) {
    a.year < b.year
    || (a.year == b.year && a.month < b.month)
    || (a.year == b.year && a.month == b.month && a.day < b.day)
  }

  function Min(a: int, b: int): int {
    if a <= b then a else b
  }

  /** (year, month) folded into one month counter, for stating month steps. */
  function MonthIndex(d: Date): int {
    12 * d.year + d.month
  }

  // ---------------------------------------------------------------------------
  // Ordinal arithmetic

  lemma DaysBeforeNextYear(year: int)
    ensures DaysBeforeYear(year + 1) == DaysBeforeYear(year) + DaysInYear(year)
  {
  }

  /** Closed form of `DaysBeforeYear`: 365 days a year plus one per leap year passed. */
  lemma {:induction false} DaysBeforeYearClosedForm(year: int)
    ensures DaysBeforeYear(year) == 365 * year + (year + 3) / 4 - (year + 99) / 100 + (year + 399) / 400
    decreases if year >= 0 then year else -year
  {
    if year > 0 {
      DaysBeforeYearClosedForm(year - 1);
      LeapCountStep(year - 1);
    } else if year < 0 {
      DaysBeforeYearClosedForm(year + 1);
      LeapCountStep(year);
    }
  }

  /** The closed form grows by the length of the year it steps over. */
  lemma LeapCountStep(y: int)
    ensures (365 * (y + 1) + (y + 4) / 4 - (y + 100) / 100 + (y + 400) / 400)
            - (365 * y + (y + 3) / 4 - (y + 99) / 100 + (y + 399) / 400) == DaysInYear(y)
  {
    QuarterStep(y);
    CenturyStep(y);
    QuadricentennialStep(y);
    DivisorsOfCenturies(y);
  }

  /** A multiple of 400 is a multiple of 100, and a multiple of 100 is a multiple of 4. */
  lemma DivisorsOfCenturies(y: int)
    ensures y % 400 == 0 ==> y % 100 == 0
    ensures y % 100 == 0 ==> y % 4 == 0
  {
    if y % 400 == 0 {
      var q := y / 400;
      assert y == 100 * (4 * q);
    }
    if y % 100 == 0 {
      var q := y / 100;
      assert y == 4 * (25 * q);
    }
  }

  /** Stepping over `y` raises `(y + 3) / 4` by one exactly when 4 divides `y`. */
  lemma QuarterStep(y: int)
    ensures (y + 4) / 4 - (y + 3) / 4 == (if y % 4 == 0 then 1 else 0)
  {
    var q := y / 4;
    assert (y + 4) / 4 == q + 1;
    assert (y + 3) / 4 == (if y % 4 == 0 then q else q + 1);
  }

  /** Stepping over `y` raises `(y + 99) / 100` by one exactly when 100 divides `y`. */
  lemma CenturyStep(y: int)
    ensures (y + 100) / 100 - (y + 99) / 100 == (if y % 100 == 0 then 1 else 0)
  {
    var q := y / 100;
    assert (y + 100) / 100 == q + 1;
    assert (y + 99) / 100 == (if y % 100 == 0 then q else q + 1);
  }

  /** Stepping over `y` raises `(y + 399) / 400` by one exactly when 400 divides `y`. */
  lemma QuadricentennialStep(y: int)
    ensures (y + 400) / 400 - (y + 399) / 400 == (if y % 400 == 0 then 1 else 0)
  {
    var q := y / 400;
    assert (y + 400) / 400 == q + 1;
    assert (y + 399) / 400 == (if y % 400 == 0 then q else q + 1);
  }

  lemma {:induction false} DaysBeforeYearMonotone(y1: int, y2: int)
    requires y1 <= y2
    ensures DaysBeforeYear(y1) + (if y1 < y2 then DaysInYear(y1) else 0) <= DaysBeforeYear(y2)
    decreases y2 - y1
  {
    if y1 < y2 {
      DaysBeforeNextYear(y1);
      DaysBeforeYearMonotone(y1 + 1, y2);
    }
  }

  lemma DaysBeforeNextMonth(year: int, month: int)
    requires 0 <= month < 12
    ensures DaysBeforeMonth(year, month + 1) == DaysBeforeMonth(year, month) + DaysInMonth(year, month)
  {
  }

  /** A later month of the same year starts no earlier than the day after an earlier month ends. */
  lemma DaysBeforeMonthMonotone(year: int, m1: int, m2: int)
    requires 0 <= m1 < m2 <= 12
    ensures DaysBeforeMonth(year, m1) + DaysInMonth(year, m1) <= DaysBeforeMonth(year, m2)
  {
  }

  lemma OrdBounds(d: Date)
    requires ValidDate(d)
    ensures DaysBeforeYear(d.year) < Ord(d) <= DaysBeforeYear(d.year) + DaysInYear(d.year)
  {
    DaysBeforeMonthMonotone(d.year, d.month, 12);
  }

  /** The day numbering agrees with the calendar's lexicographic order. */
  lemma LexBeforeOrd(a: Date, b: Date)
    requires ValidDate(a) && ValidDate(b)
    ensures LexBefore(a, b) <==> Ord(a) < Ord(b)
  {
    if LexBefore(a, b) {
      LexBeforeImpliesOrd(a, b);
    } else if a == b {
    } else {
      assert LexBefore(b, a);
      LexBeforeImpliesOrd(b, a);
    }
  }

  lemma LexBeforeImpliesOrd(a: Date, b: Date)
    requires ValidDate(a) && ValidDate(b) && LexBefore(a, b)
    ensures Ord(a) < Ord(b)
  {
    if a.year < b.year {
      OrdBounds(a);
      OrdBounds(b);
      DaysBeforeYearMonotone(a.year, b.year);
    } else if a.month < b.month {
      DaysBeforeMonthMonotone(a.year, a.month, b.month);
    }
  }

  /** Distinct valid dates have distinct day numbers. */
  lemma OrdInjective(a: Date, b: Date)
    requires ValidDate(a) && ValidDate(b) && Ord(a) == Ord(b)
    ensures a == b
  {
    LexBeforeOrd(a, b);
    LexBeforeOrd(b, a);
  }

  // ---------------------------------------------------------------------------
  // Day steps

  function DayAfter(d: Date): (r: Date)
    requires ValidDate(d)
    ensures ValidDate(r) && Ord(r) == Ord(d) + 1
  {
    if d.day < DaysInMonth(d.year, d.month) then Date(d.year, d.month, d.day + 1)
    else if d.month < 11 then
      DaysBeforeNextMonth(d.year, d.month);
      Date(d.year, d.month + 1, 1)
    else
      DaysBeforeNextYear(d.year);
      Date(d.year + 1, 0, 1)
  }

  function DayBefore(d: Date): (r: Date)
    requires ValidDate(d)
    ensures ValidDate(r) && Ord(r) == Ord(d) - 1
  {
    if d.day > 1 then Date(d.year, d.month, d.day - 1)
    else if d.month > 0 then
      DaysBeforeNextMonth(d.year, d.month - 1);
      Date(d.year, d.month - 1, DaysInMonth(d.year, d.month - 1))
    else
      DaysBeforeNextYear(d.year - 1);
      Date(d.year - 1, 11, 31)
  }

  function AddDays(d: Date, n: nat): (r: Date)
    requires ValidDate(d)
    ensures ValidDate(r) && Ord(r) == Ord(d) + n
  {
    if n == 0 then d else DayAfter(AddDays(d, n - 1))
  }

  function SubDays(d: Date, n: nat): (r: Date)
    requires ValidDate(d)
    ensures ValidDate(r) && Ord(r) == Ord(d) - n
  {
    if n == 0 then d else DayBefore(SubDays(d, n - 1))
  }

  /** The unique valid date with a given day number is found by offsetting. */
  lemma SameOrdSameDate(a: Date, b: Date)
    requires ValidDate(a) && ValidDate(b)
    ensures Ord(a) == Ord(b) <==> a == b
  {
    if Ord(a) == Ord(b) {
      OrdInjective(a, b);
    }
  }

  lemma AddSubRoundTrip(d: Date, n: nat)
    requires ValidDate(d)
    ensures AddDays(SubDays(d, n), n) == d
    ensures SubDays(AddDays(d, n), n) == d
  {
    OrdInjective(AddDays(SubDays(d, n), n), d);
    OrdInjective(SubDays(AddDays(d, n), n), d);
  }

  lemma DayAfterBeforeInverse(d: Date)
    requires ValidDate(d)
    ensures DayBefore(DayAfter(d)) == d && DayAfter(DayBefore(d)) == d
  {
    OrdInjective(DayBefore(DayAfter(d)), d);
    OrdInjective(DayAfter(DayBefore(d)), d);
  }

  // ---------------------------------------------------------------------------
  // Month and year boundaries and steps

  function FirstDayOfMonth(d: Date): (r: Date)
    requires ValidDate(d)
    ensures ValidDate(r) && r.year == d.year && r.month == d.month
  {
    Date(d.year, d.month, 1)
  }

  function LastDayOfMonth(d: Date): (r: Date)
    requires ValidDate(d)
    ensures ValidDate(r) && r.year == d.year && r.month == d.month
    ensures r.month == 1 ==> (r.day == 29 <==> IsLeapYear(r.year))
  {
    Date(d.year, d.month, DaysInMonth(d.year, d.month))
  }

  /** The first and last day of a month are its earliest and latest days. */
  lemma MonthSpan(d: Date, e: Date)
    requires ValidDate(d) && ValidDate(e) && e.year == d.year && e.month == d.month
    ensures Ord(FirstDayOfMonth(d)) <= Ord(e) <= Ord(LastDayOfMonth(d))
  {
  }

  /** Same day of the following month, clamped to that month's length. */
  function MonthAfter(d: Date): (r: Date)
    requires ValidDate(d)
    ensures ValidDate(r) && MonthIndex(r) == MonthIndex(d) + 1
    ensures r.day == Min(d.day, DaysInMonth(r.year, r.month))
  {
    if d.month == 11 then Date(d.year + 1, 0, d.day)
    else Date(d.year, d.month + 1, Min(d.day, DaysInMonth(d.year, d.month + 1)))
  }

  /** Same day of the preceding month, clamped to that month's length. */
  function MonthBefore(d: Date): (r: Date)
    requires ValidDate(d)
    ensures ValidDate(r) && MonthIndex(r) == MonthIndex(d) - 1
    ensures r.day == Min(d.day, DaysInMonth(r.year, r.month))
  {
    if d.month == 0 then Date(d.year - 1, 11, d.day)
    else Date(d.year, d.month - 1, Min(d.day, DaysInMonth(d.year, d.month - 1)))
  }

  /** Same month and day of the following year; 29 February becomes 28 February. */
  function YearAfter(d: Date): (r: Date)
    requires ValidDate(d)
    ensures ValidDate(r) && r.year == d.year + 1 && r.month == d.month
    ensures r.day == Min(d.day, DaysInMonth(r.year, r.month))
  {
    Date(d.year + 1, d.month, Min(d.day, DaysInMonth(d.year + 1, d.month)))
  }

  /** Same month and day of the preceding year; 29 February becomes 28 February. */
  function YearBefore(d: Date): (r: Date)
    requires ValidDate(d)
    ensures ValidDate(r) && r.year == d.year - 1 && r.month == d.month
    ensures r.day == Min(d.day, DaysInMonth(r.year, r.month))
  {
    Date(d.year - 1, d.month, Min(d.day, DaysInMonth(d.year - 1, d.month)))
  }

  /** A day that exists in every month survives a month forward and back, and back and forward. */
  lemma MonthStepsRoundTrip(d: Date)
    requires ValidDate(d) && d.day <= 28
    ensures MonthBefore(MonthAfter(d)) == d && MonthAfter(MonthBefore(d)) == d
  {
  }

  /** Any day but 29 February survives a year forward and back, and back and forward. */
  lemma YearStepsRoundTrip(d: Date)
    requires ValidDate(d) && !(d.month == 1 && d.day == 29)
    ensures YearBefore(YearAfter(d)) == d && YearAfter(YearBefore(d)) == d
  {
  }
}

=== FILE: iso_date.dfy ===
/**
  ISO 8601 calendar-date strings (`YYYY-MM-DD`), the payload format of the picker's
  `selectDate` event. Years outside [0, 9999] use the expanded six-digit form with a
  sign, as ECMAScript's `Date.prototype.toISOString` writes them.
 */
module IsoDate {
  import opened DateMath
  import opened Wrappers

  function Pow10(n: nat): (p: nat)
    ensures p >= 1
  {
    if n == 0 then 1 else 10 * Pow10(n - 1)
  }

  predicate IsDigit(c: char) {
    '0' <= c <= '9'
  }

  predicate AllDigits(s: string) {
    forall i :: 0 <= i < |s| ==> IsDigit(s[i])
  }

  /** The last `width` decimal digits of `n`, most significant first. */
  function Digits(n: nat, width: nat): (s: string)
    ensures |s| == width && AllDigits(s)
  {
    if width == 0 then []
    else Digits(n / 10, width - 1) + [('0' as int + n % 10) as char]
  }

  /** The number a string of decimal digits denotes. */
  function DigitsValue(s: string): (v: nat)
    requires AllDigits(s)
    ensures v < Pow10(|s|)
  {
    if s == [] then 0
    else
      assert IsDigit(s[|s| - 1]);
      10 * DigitsValue(s[..|s| - 1]) + (s[|s| - 1] as int - '0' as int)
  }

  function YearText(year: int): string {
    if 0 <= year <= 9999 then Digits(year, 4)
    else if year < 0 then "-" + Digits(-year, 6)
    else "+" + Digits(year, 6)
  }

  /** `getISODateString(d)`: the date part of the ISO 8601 representation. */
  function Iso(d: Date): (s: string)
    requires ValidDate(d)
    ensures 0 <= d.year <= 9999 ==> |s| == 10 && s[4] == '-' && s[7] == '-'
  {
    YearText(d.year) + "-" + Digits(d.month + 1, 2) + "-" + Digits(d.day, 2)
  }

  /** The date three digit fields denote, if it is a calendar date. */
  function DateOfFields(y: string, m: string, dd: string): (r: Option<Date>)
    requires AllDigits(y) && AllDigits(m) && AllDigits(dd)
    ensures r.Some? ==> ValidDate(r.value)
    ensures r.Some? ==> r.value == Date(DigitsValue(y), DigitsValue(m) - 1, DigitsValue(dd))
  {
    var d := Date(DigitsValue(y), DigitsValue(m) - 1, DigitsValue(dd));
    if ValidDate(d) then Some(d) else None
  }

  /** Reads a ten-character `YYYY-MM-DD` string back into a valid date, if it is one. */
  function ParseIso(s: string): (r: Option<Date>)
    ensures r.Some? ==> ValidDate(r.value) && 0 <= r.value.year <= 9999
  {
    if |s| == 10 && s[4] == '-' && s[7] == '-'
       && AllDigits(s[..4]) && AllDigits(s[5..7]) && AllDigits(s[8..])
    then DateOfFields(s[..4], s[5..7], s[8..])
    else None
  }

  lemma {:induction false} DigitsRoundTrip(n: nat, width: nat)
    requires n < Pow10(width)
    ensures DigitsValue(Digits(n, width)) == n
  {
    if width > 0 {
      var s := Digits(n, width);
      assert s[..|s| - 1] == Digits(n / 10, width - 1);
      DigitsRoundTrip(n / 10, width - 1);
    }
  }

  /** The fields of a `YYYY-MM-DD` string sit at fixed positions. */
  lemma IsoFields(y: string, m: string, dd: string)
    requires |y| == 4 && |m| == 2 && |dd| == 2
    ensures var s := y + "-" + m + "-" + dd;
            && |s| == 10 && s[4] == '-' && s[7] == '-'
            && s[..4] == y && s[5..7] == m && s[8..] == dd
  {
    var s := y + "-" + m + "-" + dd;
    assert s == y + (['-'] + m + ['-'] + dd);
    assert s[..4] == y;
    assert s[5..] == m + ['-'] + dd;
    assert s[5..7] == m;
    assert s[8..] == dd;
  }

  /** Parsing digit fields joined by dashes reads each field's value. */
  lemma ParseIsoFields(y: string, m: string, dd: string)
    requires |y| == 4 && |m| == 2 && |dd| == 2
    requires AllDigits(y) && AllDigits(m) && AllDigits(dd)
    ensures ParseIso(y + "-" + m + "-" + dd) == DateOfFields(y, m, dd)
  {
    IsoFields(y, m, dd);
  }

  /** A four-digit-year date prints as its three zero-padded fields joined by dashes. */
  lemma IsoOfFields(d: Date)
    requires ValidDate(d) && 0 <= d.year <= 9999
    ensures Iso(d) == Digits(d.year, 4) + "-" + Digits(d.month + 1, 2) + "-" + Digits(d.day, 2)
  {
    assert YearText(d.year) == Digits(d.year, 4);
  }

  /** The zero-padded fields of a four-digit-year date denote that date. */
  lemma FieldsOfDate(d: Date)
    requires ValidDate(d) && 0 <= d.year <= 9999
    ensures DateOfFields(Digits(d.year, 4), Digits(d.month + 1, 2), Digits(d.day, 2)) == Some(d)
  {
    assert Pow10(2) == 100 && Pow10(4) == 10000;
    DigitsRoundTrip(d.year, 4);
    DigitsRoundTrip(d.month + 1, 2);
    DigitsRoundTrip(d.day, 2);
  }

  /** Every four-digit-year date survives formatting and parsing unchanged. */
  lemma IsoRoundTrip(d: Date)
    requires ValidDate(d) && 0 <= d.year <= 9999
    ensures ParseIso(Iso(d)) == Some(d)
  {
    IsoOfFields(d);
    ParseIsoFields(Digits(d.year, 4), Digits(d.month + 1, 2), Digits(d.day, 2));
    FieldsOfDate(d);
  }

  /** Distinct four-digit-year dates have distinct ISO strings. */
  lemma IsoInjective(a: Date, b: Date)
    requires ValidDate(a) && 0 <= a.year <= 9999
    requires ValidDate(b) && 0 <= b.year <= 9999
    ensures Iso(a) == Iso(b) <==> a == b
  {
    IsoRoundTrip(a);
    IsoRoundTrip(b);
  }
}

=== FILE: navigation.dfy ===
/**
  The picker's directional search (`getAvailableDate`): from a date and one of ten
  directions, compute the raw target, and while it is disabled keep stepping until an
  enabled date turns up or the candidate leaves the direction's search range, in which
  case the move is abandoned and the original date comes back.

  Two readings of the range test are modelled. `AsWritten` compares the candidate's
  month with `date.month - 1` / `date.month + 1` for the previous/next-month moves,
  without wrapping, so from January or December any disabled target ends the search at
  once. `Corrected` wraps the month, so the search stays in the target month as it does
  for every other month. The picker's handlers take the reading as a parameter.
 */
module Navigation {
  import opened DateMath

  datatype Direction =
    | PreviousDay | NextDay | PreviousSameWeekDay | NextSameWeekDay
    | FirstOfMonth | LastOfMonth | PreviousMonth | NextMonth | PreviousYear | NextYear

  /**
    Which reading of the two discrepancies the model follows: `AsWritten` is the code as it
    stands (the month bound of a month move does not wrap; month select builds its date with
    the two-digit-year constructor), `Corrected` is what the code evidently intends.
   */
  datatype Variant = AsWritten | Corrected

  /** Day and week moves are bounded by the search horizon; the others by a month. */
  predicate DayBounded(dir: Direction) {
    dir.PreviousDay? || dir.NextDay? || dir.PreviousSameWeekDay? || dir.NextSameWeekDay?
  }

  /** The date a move lands on before disabled dates are considered. */
  function RawTarget(date: Date, dir: Direction): (r: Date)
    requires ValidDate(date)
    ensures ValidDate(r)
    ensures DayBounded(dir) ==> Ord(r) - Ord(date) == Stride(dir)
    ensures dir.FirstOfMonth? || dir.LastOfMonth? ==> r.year == date.year && r.month == date.month
    ensures dir.PreviousMonth? || dir.NextMonth? ==> MonthIndex(r) == MonthIndex(date) + Stride(dir)
    ensures dir.PreviousYear? || dir.NextYear? ==> r.year == date.year + Stride(dir) && r.month == date.month
  {
    match dir
    case PreviousDay => DayBefore(date)
    case NextDay => DayAfter(date)
    case PreviousSameWeekDay => SubDays(date, 7)
    case NextSameWeekDay => AddDays(date, 7)
    case FirstOfMonth => FirstDayOfMonth(date)
    case LastOfMonth => LastDayOfMonth(date)
    case PreviousMonth => MonthBefore(date)
    case NextMonth => MonthAfter(date)
    case PreviousYear => YearBefore(date)
    case NextYear => YearAfter(date)
  }

  /** Signed size of one move: days for day and week moves, months or years otherwise. */
  function Stride(dir: Direction): int {
    match dir
    case PreviousDay => -1
    case NextDay => 1
    case PreviousSameWeekDay => -7
    case NextSameWeekDay => 7
    case PreviousMonth | PreviousYear => -1
    case NextMonth | NextYear => 1
    case FirstOfMonth | LastOfMonth => 0
  }

  /** Days the search moves away from a disabled candidate in one step. */
  function WalkStride(dir: Direction): int {
    match dir
    case PreviousDay | LastOfMonth => -1
    case PreviousSameWeekDay => -7
    case NextSameWeekDay => 7
    case _ => 1
  }

  /** The step taken from a disabled candidate. */
  function Advance(p: Date, dir: Direction): (r: Date)
    requires ValidDate(p)
    ensures ValidDate(r) && Ord(r) == Ord(p) + WalkStride(dir)
  {
    match dir
    case PreviousDay | LastOfMonth => DayBefore(p)
    case PreviousSameWeekDay => SubDays(p, 7)
    case NextSameWeekDay => AddDays(p, 7)
    case _ => DayAfter(p)
  }

  /**
    The month number a month-bounded search must stay in. Corrected, it is always the month
    of the month step; as written, "previous month" from January and "next month" from
    December give a number no month has.
   */
  function MonthBound(variant: Variant, date: Date, dir: Direction): (m: int)
    requires ValidDate(date)
    ensures dir.PreviousMonth? ==> (m == MonthBefore(date).month <==> variant.Corrected? || date.month != 0)
    ensures dir.NextMonth? ==> (m == MonthAfter(date).month <==> variant.Corrected? || date.month != 11)
    ensures !dir.PreviousMonth? && !dir.NextMonth? ==> m == date.month
    ensures 0 <= m < 12
            <==> variant.Corrected? || !((dir.PreviousMonth? && date.month == 0) || (dir.NextMonth? && date.month == 11))
  {
    match dir
    case PreviousMonth => if variant.AsWritten? then date.month - 1 else (date.month + 11) % 12
    case NextMonth => if variant.AsWritten? then date.month + 1 else (date.month + 1) % 12
    case _ => date.month
  }

  /**
    The range test applied to each candidate after a step: day moves stay within
    `maxSearchDays` days of the original date; the other moves stay in the raw target's
    month, except that as written every candidate of a wrapping month move is out of range.
   */
  function OutOfRange(variant: Variant, date: Date, dir: Direction, maxSearchDays: nat, p: Date): (out: bool)
    requires ValidDate(date) && ValidDate(p)
    ensures DayBounded(dir) ==> (out <==> Ord(p) < Ord(date) - maxSearchDays || Ord(date) + maxSearchDays < Ord(p))
    ensures !DayBounded(dir) && variant.Corrected? ==> (out <==> p.month != RawTarget(date, dir).month)
    ensures !DayBounded(dir) && variant.AsWritten?
            && !((dir.PreviousMonth? && date.month == 0) || (dir.NextMonth? && date.month == 11))
            ==> (out <==> p.month != RawTarget(date, dir).month)
    ensures variant.AsWritten? && ((dir.PreviousMonth? && date.month == 0) || (dir.NextMonth? && date.month == 11))
            ==> out
  {
    if DayBounded(dir) then !InRange(p, SubDays(date, maxSearchDays), AddDays(date, maxSearchDays))
    else p.month != MonthBound(variant, date, dir)
  }

  /** Termination measure: distance to the horizon, or days left in the bounding month. */
  ghost function Progress(variant: Variant, date: Date, dir: Direction, maxSearchDays: nat, p: Date): nat
    requires ValidDate(date) && ValidDate(p)
  {
    if DayBounded(dir) then
      var gap := if WalkStride(dir) > 0 then Ord(date) + maxSearchDays - Ord(p)
                 else Ord(p) - (Ord(date) - maxSearchDays);
      if gap < 0 then 0 else gap
    else if p.month != MonthBound(variant, date, dir) then 32
    else if dir.LastOfMonth? then p.day
    else DaysInMonth(p.year, p.month) - p.day
  }

  /** The loop of `getAvailableDate`, entered with candidate `p` and the range flag clear. */
  function Search(variant: Variant, date: Date, dir: Direction, disableDate: Date -> bool,
                  maxSearchDays: nat, p: Date): (r: Date)
    requires ValidDate(date) && ValidDate(p)
    ensures ValidDate(r)
    ensures r == date || !disableDate(r)
    ensures r == date || r == p || !OutOfRange(variant, date, dir, maxSearchDays, r)
    decreases Progress(variant, date, dir, maxSearchDays, p)
  {
    if !disableDate(p) then p
    else
      var next := Advance(p, dir);
      if OutOfRange(variant, date, dir, maxSearchDays, next) then date
      else Search(variant, date, dir, disableDate, maxSearchDays, next)
  }

  /**
    `getAvailableDate(date, direction)`: an enabled date in the given direction, or `date`
    itself when the search leaves its range.
   */
  function AvailableDate(variant: Variant, date: Date, dir: Direction, disableDate: Date -> bool,
                         maxSearchDays: nat): (r: Date)
    requires ValidDate(date)
    ensures ValidDate(r)
    ensures r == date || !disableDate(r)
    ensures !disableDate(RawTarget(date, dir)) ==> r == RawTarget(date, dir)
    ensures DayBounded(dir) && r != date && disableDate(RawTarget(date, dir)) ==>
              Ord(date) - maxSearchDays <= Ord(r) <= Ord(date) + maxSearchDays
    ensures !DayBounded(dir) && r != date && disableDate(RawTarget(date, dir)) ==>
              r.month == MonthBound(variant, date, dir)
  {
    Search(variant, date, dir, disableDate, maxSearchDays, RawTarget(date, dir))
  }

  // ---------------------------------------------------------------------------
  // Reference definition: the sequence of candidates the loop visits

  /** The raw target followed by the candidates of `k` steps. */
  function Walk(date: Date, dir: Direction, k: nat): (w: seq<Date>)
    requires ValidDate(date)
    ensures |w| == k + 1 && w[0] == RawTarget(date, dir)
    ensures forall j :: 0 <= j < |w| ==> ValidDate(w[j])
    ensures forall j :: 0 <= j < k ==> w[j + 1] == Advance(w[j], dir)
  {
    if k == 0 then [RawTarget(date, dir)]
    else
      var w := Walk(date, dir, k - 1);
      w + [Advance(w[k - 1], dir)]
  }

  /** A chain of steps: each candidate but the last is disabled and followed by its successor. */
  predicate DisabledChain(dir: Direction, disableDate: Date -> bool, walk: seq<Date>) {
    && (forall j :: 0 <= j < |walk| ==> ValidDate(walk[j]))
    && (forall j :: 0 <= j < |walk| - 1 ==> disableDate(walk[j]) && walk[j + 1] == Advance(walk[j], dir))
  }

  lemma {:induction false} SearchFound(variant: Variant, date: Date, dir: Direction, disableDate: Date -> bool,
                                       maxSearchDays: nat, walk: seq<Date>)
    requires ValidDate(date) && 1 <= |walk| && DisabledChain(dir, disableDate, walk)
    requires !disableDate(walk[|walk| - 1])
    requires forall j :: 0 < j < |walk| ==> !OutOfRange(variant, date, dir, maxSearchDays, walk[j])
    ensures Search(variant, date, dir, disableDate, maxSearchDays, walk[0]) == walk[|walk| - 1]
  {
    if 1 < |walk| {
      var rest := walk[1..];
      assert rest[0] == walk[1] && rest[|rest| - 1] == walk[|walk| - 1];
      SearchFound(variant, date, dir, disableDate, maxSearchDays, rest);
    }
  }

  lemma {:induction false} SearchAbandoned(variant: Variant, date: Date, dir: Direction, disableDate: Date -> bool,
                                           maxSearchDays: nat, walk: seq<Date>)
    requires ValidDate(date) && 2 <= |walk| && DisabledChain(dir, disableDate, walk)
    requires forall j :: 0 < j < |walk| - 1 ==> !OutOfRange(variant, date, dir, maxSearchDays, walk[j])
    requires OutOfRange(variant, date, dir, maxSearchDays, walk[|walk| - 1])
    ensures Search(variant, date, dir, disableDate, maxSearchDays, walk[0]) == date
  {
    if 2 < |walk| {
      var rest := walk[1..];
      assert rest[0] == walk[1] && rest[|rest| - 1] == walk[|walk| - 1];
      SearchAbandoned(variant, date, dir, disableDate, maxSearchDays, rest);
    }
  }

  /**
    When the first k candidates are disabled, the k-th is enabled and none of the
    stepped-to candidates left the range, the search returns the k-th candidate.
   */
  lemma FindsFirstEnabledCandidate(variant: Variant, date: Date, dir: Direction, disableDate: Date -> bool,
                                   maxSearchDays: nat, k: nat)
    requires ValidDate(date)
    requires forall j :: 0 <= j < k ==> disableDate(Walk(date, dir, k)[j])
    requires !disableDate(Walk(date, dir, k)[k])
    requires forall j :: 0 < j <= k ==> !OutOfRange(variant, date, dir, maxSearchDays, Walk(date, dir, k)[j])
    ensures AvailableDate(variant, date, dir, disableDate, maxSearchDays) == Walk(date, dir, k)[k]
  {
    SearchFound(variant, date, dir, disableDate, maxSearchDays, Walk(date, dir, k));
  }

  /**
    When every candidate before the k-th is disabled and the k-th (k >= 1) is the first
    to leave the range, the move is abandoned and the original date is returned.
   */
  lemma GivesUpOutsideRange(variant: Variant, date: Date, dir: Direction, disableDate: Date -> bool,
                            maxSearchDays: nat, k: nat)
    requires ValidDate(date) && 1 <= k
    requires forall j :: 0 <= j < k ==> disableDate(Walk(date, dir, k)[j])
    requires forall j :: 0 < j < k ==> !OutOfRange(variant, date, dir, maxSearchDays, Walk(date, dir, k)[j])
    requires OutOfRange(variant, date, dir, maxSearchDays, Walk(date, dir, k)[k])
    ensures AvailableDate(variant, date, dir, disableDate, maxSearchDays) == date
  {
    SearchAbandoned(variant, date, dir, disableDate, maxSearchDays, Walk(date, dir, k));
  }

  /** With the month wrapped, every month-bounded search is bounded by the raw target's own month. */
  lemma CorrectedBoundIsTargetMonth(date: Date, dir: Direction)
    requires ValidDate(date) && !DayBounded(dir)
    ensures MonthBound(Corrected, date, dir) == RawTarget(date, dir).month
  {
  }

  /** The as-written bound misses the raw target's month exactly for the two wrapping moves. */
  lemma AsWrittenBoundMissesWrap(date: Date, dir: Direction)
    requires ValidDate(date) && !DayBounded(dir)
    ensures MonthBound(AsWritten, date, dir) != RawTarget(date, dir).month
            <==> (dir.PreviousMonth? && date.month == 0) || (dir.NextMonth? && date.month == 11)
  {
  }

  /** As written, a disabled target from January (back) or December (forward) ends the search. */
  lemma AsWrittenWrapGivesUp(date: Date, dir: Direction, disableDate: Date -> bool, maxSearchDays: nat)
    requires ValidDate(date)
    requires (dir.PreviousMonth? && date.month == 0) || (dir.NextMonth? && date.month == 11)
    requires disableDate(RawTarget(date, dir))
    ensures AvailableDate(AsWritten, date, dir, disableDate, maxSearchDays) == date
  {
    GivesUpOutsideRange(AsWritten, date, dir, disableDate, maxSearchDays, 1);
  }

  lemma {:induction false} SearchVariantsAgree(date: Date, dir: Direction, disableDate: Date -> bool,
                                               maxSearchDays: nat, p: Date)
    requires ValidDate(date) && ValidDate(p)
    requires MonthBound(AsWritten, date, dir) == MonthBound(Corrected, date, dir)
    ensures Search(AsWritten, date, dir, disableDate, maxSearchDays, p)
            == Search(Corrected, date, dir, disableDate, maxSearchDays, p)
    decreases Progress(AsWritten, date, dir, maxSearchDays, p)
  {
    if disableDate(p) {
      var next := Advance(p, dir);
      if !OutOfRange(AsWritten, date, dir, maxSearchDays, next) {
        SearchVariantsAgree(date, dir, disableDate, maxSearchDays, next);
      }
    }
  }

  /** Apart from the two wrapping moves, both readings of the range test find the same date. */
  lemma VariantsAgreeAwayFromWrap(date: Date, dir: Direction, disableDate: Date -> bool, maxSearchDays: nat)
    requires ValidDate(date)
    requires !((dir.PreviousMonth? && date.month == 0) || (dir.NextMonth? && date.month == 11))
    ensures AvailableDate(AsWritten, date, dir, disableDate, maxSearchDays)
            == AvailableDate(Corrected, date, dir, disableDate, maxSearchDays)
  {
    SearchVariantsAgree(date, dir, disableDate, maxSearchDays, RawTarget(date, dir));
  }
}

=== FILE: picker.dfy ===
/**
  The picker as a state machine: the displayed date (`currentDate`), the selection
  (`value`), the hovered cell and the one-shot "move focus after the month changed" flag,
  driven by the handlers of the component and by its property watchers. Every handler is
  a pure function from a state to the next state and the events it emits, in order.

  Stencil runs a `@Watch` handler synchronously whenever the component assigns the
  watched property, so assigning `value` inside a handler also runs `watchValue`;
  `AssignValue` models that pair. "Today" and the dates parsed out of cell attributes are
  parameters; the `disableDate` property is a function parameter.
 */
module Picker {
  import opened DateMath
  import opened Wrappers
  import opened IsoDate
  import opened Navigation

  /** The `value` property: unset, one date, or an array of dates. */
  datatype Value = Unset | Single(date: Date) | Many(dates: seq<Date>)

  /** The detail of a `selectDate` event. */
  datatype Payload = NoDate | IsoText(text: string) | IsoList(texts: seq<string>)

  /** The events the picker emits; `ChangeMonth` carries a 1-based month. */
  datatype Emitted =
    | SelectDate(detail: Payload)
    | ChangeMonth(month: int, year: int, day: int)

  /** The properties the engine reads. */
  datatype Props = Props(disabled: bool, range: bool, goToRangeStartOnSelect: bool,
                         maxSearchDays: nat, firstDayOfWeek: int)

  datatype State = State(props: Props, currentDate: Date, value: Value,
                         hoveredDate: Option<Date>, moveFocusAfterMonthChanged: bool)

  /** The state after a handler and the events it emitted, in order. */
  datatype Step = Step(state: State, events: seq<Emitted>)

  predicate ValueValid(v: Value) {
    match v
    case Unset => true
    case Single(d) => ValidDate(d)
    case Many(ds) => forall i :: 0 <= i < |ds| ==> ValidDate(ds[i])
  }

  /** The states the picker can be in: every date it holds is a calendar date. */
  predicate WellFormed(s: State) {
    && ValidDate(s.currentDate)
    && ValueValid(s.value)
    && (s.hoveredDate.Some? ==> ValidDate(s.hoveredDate.value))
    && 0 <= s.props.firstDayOfWeek <= 6
  }

  // ---------------------------------------------------------------------------
  // Watchers and clearing

  /** An array value with no element; assigning one makes the displayed date undefined. */
  predicate EmptyArray(v: Value) {
    v.Many? && |v.dates| == 0
  }

  /** `watchValue`: move the displayed date to the new value. */
  function WatchValue(s: State): (r: State)
    requires !EmptyArray(s.value)
    ensures r == s.(currentDate := r.currentDate)
    ensures s.value.Unset? ==> r.currentDate == s.currentDate
    ensures s.value.Single? ==> r.currentDate == s.value.date
    ensures s.value.Many? && |s.value.dates| > 1 && !s.props.goToRangeStartOnSelect
            ==> r.currentDate == s.value.dates[1]
    ensures s.value.Many? && (|s.value.dates| == 1 || s.props.goToRangeStartOnSelect)
            ==> r.currentDate == s.value.dates[0]
  {
    match s.value
    case Unset => s
    case Single(d) => s.(currentDate := d)
    case Many(ds) =>
      s.(currentDate := if |ds| > 1 && !s.props.goToRangeStartOnSelect then ds[1] else ds[0])
  }

  /** Assigning `value` from inside the component, which runs `watchValue` at once. */
  function AssignValue(s: State, v: Value): (r: State)
    requires !EmptyArray(v)
    ensures r == s.(value := v, currentDate := r.currentDate)
    ensures v.Unset? ==> r.currentDate == s.currentDate
    ensures v.Single? ==> r.currentDate == v.date
    ensures v.Many? ==> r.currentDate == (if |v.dates| > 1 && !s.props.goToRangeStartOnSelect
                                         then v.dates[1] else v.dates[0])
  {
    WatchValue(s.(value := v))
  }

  /**
    Setting the `value` property from outside. An empty array would leave the displayed
    date undefined, which no state represents: that case yields `None`.
   */
  function SetValue(s: State, v: Value): (r: Option<State>)
    ensures r.None? <==> EmptyArray(v)
    ensures r.Some? ==> r.value.value == v && r.value.props == s.props
    ensures r.Some? ==> r.value == AssignValue(s, v)
    ensures r.Some? && v.Unset? ==> r.value == s.(value := Unset)
  {
    if EmptyArray(v) then None else Some(AssignValue(s, v))
  }

  /** `watchRange`, run when the `range` property changes: the selection is dropped. */
  function SetRange(s: State, range: bool): (r: Step)
    ensures range == s.props.range ==> r == Step(s, [])
    ensures range != s.props.range ==>
              r.state == s.(props := s.props.(range := range), value := Unset)
              && r.events == [SelectDate(NoDate)]
  {
    if range == s.props.range then Step(s, [])
    else Step(s.(props := s.props.(range := range), value := Unset), [SelectDate(NoDate)])
  }

  /** `watchStartDate`: show the parsed start date, or today when there is none. */
  function SetStartDate(s: State, start: Option<Date>, today: Date): (r: State)
    ensures r == s.(currentDate := r.currentDate)
    ensures r.currentDate == (if start.Some? then start.value else today)
  {
    s.(currentDate := if start.Some? then start.value else today)
  }

  /** `clear`: drop the selection and announce it. */
  function Clear(s: State): (r: Step)
    ensures r.state == s.(value := Unset)
    ensures r.events == [SelectDate(NoDate)]
  {
    Step(s.(value := Unset), [SelectDate(NoDate)])
  }

  // ---------------------------------------------------------------------------
  // Committing the displayed date

  /** The displayed month differs between `a` and `b`. */
  predicate MonthChanged(a: Date, b: Date) {
    a.month != b.month || a.year != b.year
  }

  /** `updateCurrentDate(date, moveFocus)`. */
  function UpdateCurrentDate(s: State, date: Date, moveFocus: bool): (r: Step)
    ensures !(0 <= date.year <= 9999) ==> r == Step(s, [])
    ensures 0 <= date.year <= 9999 ==>
              && r.state.currentDate == date
              && r.state == s.(currentDate := date, moveFocusAfterMonthChanged := r.state.moveFocusAfterMonthChanged)
              && |r.events| <= 1
              && (r.events != [] <==> MonthChanged(s.currentDate, date))
              && (r.events != [] ==> r.events[0] == ChangeMonth(date.month + 1, date.year, date.day))
              && (r.state.moveFocusAfterMonthChanged
                  <==> s.moveFocusAfterMonthChanged || (moveFocus && MonthChanged(s.currentDate, date)))
  {
    if date.year > 9999 || date.year < 0 then Step(s, [])
    else
      var changed := MonthChanged(s.currentDate, date);
      var events := if changed then [ChangeMonth(date.month + 1, date.year, date.day)] else [];
      var flag := if changed && moveFocus then true else s.moveFocusAfterMonthChanged;
      Step(s.(currentDate := date, moveFocusAfterMonthChanged := flag), events)
  }

  /** Committing the same date twice: the second commit changes nothing and emits nothing. */
  lemma UpdateCurrentDateIdempotent(s: State, date: Date, moveFocus: bool)
    ensures var first := UpdateCurrentDate(s, date, moveFocus);
            UpdateCurrentDate(first.state, date, moveFocus) == Step(first.state, [])
  {
  }

  // ---------------------------------------------------------------------------
  // Selecting a date

  /** The start an unfinished range selection continues from, if any. */
  function RangeStart(v: Value): (r: Option<Date>)
    ensures r.Some? <==> v.Many? && |v.dates| != 0 && |v.dates| != 2
    ensures r.Some? ==> r.value == v.dates[0]
  {
    match v
    case Many(ds) => if |ds| == 0 || |ds| == 2 then None else Some(ds[0])
    case _ => None
  }

  /** The dates are in ascending order. */
  predicate Ascending(ds: seq<Date>)
    requires forall i :: 0 <= i < |ds| ==> ValidDate(ds[i])
  {
    forall i, j :: 0 <= i < j < |ds| ==> !Before(ds[j], ds[i])
  }

  /** The range value selecting `date` produces. */
  function RangeValue(v: Value, date: Date): (r: seq<Date>)
    requires ValueValid(v) && ValidDate(date)
    ensures forall i :: 0 <= i < |r| ==> ValidDate(r[i])
    ensures RangeStart(v).None? ==> r == [date]
    ensures RangeStart(v).Some? ==> |r| == 2 && multiset(r) == multiset{RangeStart(v).value, date}
    ensures Ascending(r)
  {
    match RangeStart(v)
    case None => [date]
    case Some(start) => if Before(date, start) then [date, start] else [start, date]
  }

  /** The ISO strings of a list of dates, element by element. */
  function IsoAll(ds: seq<Date>): (r: seq<string>)
    requires forall i :: 0 <= i < |ds| ==> ValidDate(ds[i])
    ensures |r| == |ds|
    ensures forall i :: 0 <= i < |ds| ==> r[i] == Iso(ds[i])
  {
    seq(|ds|, i requires 0 <= i < |ds| => Iso(ds[i]))
  }

  /** `onSelectDate(date)`. */
  function OnSelectDate(s: State, date: Date, disableDate: Date -> bool): (r: Step)
    requires WellFormed(s) && ValidDate(date)
    ensures disableDate(date) ==> r == Step(s, [])
    ensures !disableDate(date) && s.props.range ==>
              var v := RangeValue(s.value, date);
              r.state == AssignValue(s, Many(v)) && r.events == [SelectDate(IsoList(IsoAll(v)))]
    ensures !s.props.range && (s.value.Many? || (s.value.Single? && SameDay(s.value.date, date)))
            ==> r == Step(s, [])
    ensures !disableDate(date) && !s.props.range && (s.value.Unset? || (s.value.Single? && !SameDay(s.value.date, date)))
            ==> r.state == s.(value := Single(date), currentDate := date)
                && r.events == [SelectDate(IsoText(Iso(date)))]
  {
    if disableDate(date) then Step(s, [])
    else if s.props.range then
      var v := RangeValue(s.value, date);
      Step(AssignValue(s, Many(v)), [SelectDate(IsoList(IsoAll(v)))])
    else
      match s.value
      case Unset => Step(AssignValue(s, Single(date)), [SelectDate(IsoText(Iso(date)))])
      case Single(d) =>
        if SameDay(d, date) then Step(s, [])
        else Step(AssignValue(s, Single(date)), [SelectDate(IsoText(Iso(date)))])
      // `getTime` is not a method of an array: the handler throws before changing anything.
      case Many(_) => Step(s, [])
  }

  /** Selecting keeps the state well formed. */
  lemma OnSelectDateWellFormed(s: State, date: Date, disableDate: Date -> bool)
    requires WellFormed(s) && ValidDate(date)
    ensures WellFormed(OnSelectDate(s, date, disableDate).state)
  {
  }

  /** From a state with no range start, selecting `a` and then `b` gives the two in ascending order. */
  lemma RangeSelectionPair(s: State, a: Date, b: Date, disableDate: Date -> bool)
    requires WellFormed(s) && s.props.range && RangeStart(s.value).None?
    requires ValidDate(a) && ValidDate(b) && !disableDate(a) && !disableDate(b)
    ensures OnSelectDate(OnSelectDate(s, a, disableDate).state, b, disableDate).state.value
            == Many(if Before(b, a) then [b, a] else [a, b])
  {
    var sa := OnSelectDate(s, a, disableDate).state;
    assert sa.value == Many([a]);
    OnSelectDateWellFormed(s, a, disableDate);
    assert OnSelectDate(sa, b, disableDate).state.value == Many(RangeValue(sa.value, b));
  }

  /** Two selections from a state with no range start give the same range in either order. */
  lemma RangeSelectionOrderIrrelevant(s: State, a: Date, b: Date, disableDate: Date -> bool)
    requires WellFormed(s) && s.props.range && RangeStart(s.value).None?
    requires ValidDate(a) && ValidDate(b) && !disableDate(a) && !disableDate(b)
    ensures OnSelectDate(OnSelectDate(s, a, disableDate).state, b, disableDate).state.value
            == OnSelectDate(OnSelectDate(s, b, disableDate).state, a, disableDate).state.value
  {
    RangeSelectionPair(s, a, b, disableDate);
    RangeSelectionPair(s, b, a, disableDate);
    if Ord(a) == Ord(b) {
      OrdInjective(a, b);
    }
  }

  /** After a complete range, the next selection starts a new one. */
  lemma RangeRestartsAfterPair(s: State, date: Date, disableDate: Date -> bool)
    requires WellFormed(s) && s.props.range && s.value.Many? && |s.value.dates| == 2
    requires ValidDate(date) && !disableDate(date)
    ensures OnSelectDate(s, date, disableDate).state.value == Many([date])
    ensures OnSelectDate(s, date, disableDate).events == [SelectDate(IsoList([Iso(date)]))]
  {
    assert IsoAll([date]) == [Iso(date)];
  }

  /** In single mode, selecting the same date a second time is a no-op. */
  lemma SingleSelectionIdempotent(s: State, date: Date, disableDate: Date -> bool)
    requires WellFormed(s) && !s.props.range && ValidDate(date)
    ensures var first := OnSelectDate(s, date, disableDate);
            OnSelectDate(first.state, date, disableDate) == Step(first.state, [])
  {
    var first := OnSelectDate(s, date, disableDate);
    if !disableDate(date) && first.state.value.Single? {
      assert SameDay(first.state.value.date, date);
    }
  }

  /** Reading the strings of a range `selectDate` event back gives the selected range. */
  lemma RangePayloadRoundTrip(s: State, date: Date, disableDate: Date -> bool)
    requires WellFormed(s) && s.props.range && ValidDate(date) && !disableDate(date)
    requires 0 <= date.year <= 9999
    requires RangeStart(s.value).Some? ==> 0 <= RangeStart(s.value).value.year <= 9999
    ensures var r := OnSelectDate(s, date, disableDate);
            r.state.value.Many? && r.events[0].detail.IsoList?
            && |r.events[0].detail.texts| == |r.state.value.dates|
            && forall i :: 0 <= i < |r.state.value.dates| ==>
                 ParseIso(r.events[0].detail.texts[i]) == Some(r.state.value.dates[i])
  {
    var v := RangeValue(s.value, date);
    forall i | 0 <= i < |v|
      ensures ParseIso(IsoAll(v)[i]) == Some(v[i])
    {
      assert v[i] in multiset(v);
      IsoRoundTrip(v[i]);
    }
  }

  /** A completed range moves the display to its start, or to its end when asked to. */
  lemma RangeSelectionShowsChosenEnd(s: State, date: Date, disableDate: Date -> bool)
    requires WellFormed(s) && s.props.range && ValidDate(date) && !disableDate(date)
    requires RangeStart(s.value).Some?
    ensures var r := OnSelectDate(s, date, disableDate).state;
            r.currentDate == (if s.props.goToRangeStartOnSelect then r.value.dates[0] else r.value.dates[1])
  {
  }

  // ---------------------------------------------------------------------------
  // Month and year steppers, today

  /** `nextMonth`: one month forward, the day clamped to the new month, announced. */
  function ShowNextMonth(s: State): (r: Step)
    requires WellFormed(s)
    ensures !(0 <= MonthAfter(s.currentDate).year <= 9999) ==> r == Step(s, [])
    ensures 0 <= MonthAfter(s.currentDate).year <= 9999 ==>
              var d := r.state.currentDate;
              && r.state == s.(currentDate := d) && ValidDate(d)
              && MonthIndex(d) == MonthIndex(s.currentDate) + 1
              && d.day == Min(s.currentDate.day, DaysInMonth(d.year, d.month))
              && r.events == [ChangeMonth(d.month + 1, d.year, d.day)]
  {
    UpdateCurrentDate(s, MonthAfter(s.currentDate), false)
  }

  /** `previousMonth`: one month back, the day clamped to the new month, announced. */
  function ShowPreviousMonth(s: State): (r: Step)
    requires WellFormed(s)
    ensures !(0 <= MonthBefore(s.currentDate).year <= 9999) ==> r == Step(s, [])
    ensures 0 <= MonthBefore(s.currentDate).year <= 9999 ==>
              var d := r.state.currentDate;
              && r.state == s.(currentDate := d) && ValidDate(d)
              && MonthIndex(d) == MonthIndex(s.currentDate) - 1
              && d.day == Min(s.currentDate.day, DaysInMonth(d.year, d.month))
              && r.events == [ChangeMonth(d.month + 1, d.year, d.day)]
  {
    UpdateCurrentDate(s, MonthBefore(s.currentDate), false)
  }

  /** `nextYear`: the same month a year later, the day clamped, announced. */
  function ShowNextYear(s: State): (r: Step)
    requires WellFormed(s)
    ensures !(0 <= s.currentDate.year + 1 <= 9999) ==> r == Step(s, [])
    ensures 0 <= s.currentDate.year + 1 <= 9999 ==>
              var d := r.state.currentDate;
              && r.state == s.(currentDate := d)
              && d.year == s.currentDate.year + 1 && d.month == s.currentDate.month
              && d.day == Min(s.currentDate.day, DaysInMonth(d.year, d.month))
              && r.events == [ChangeMonth(d.month + 1, d.year, d.day)]
  {
    UpdateCurrentDate(s, YearAfter(s.currentDate), false)
  }

  /** `previousYear`: the same month a year earlier, the day clamped, announced. */
  function ShowPreviousYear(s: State): (r: Step)
    requires WellFormed(s)
    ensures !(0 <= s.currentDate.year - 1 <= 9999) ==> r == Step(s, [])
    ensures 0 <= s.currentDate.year - 1 <= 9999 ==>
              var d := r.state.currentDate;
              && r.state == s.(currentDate := d)
              && d.year == s.currentDate.year - 1 && d.month == s.currentDate.month
              && d.day == Min(s.currentDate.day, DaysInMonth(d.year, d.month))
              && r.events == [ChangeMonth(d.month + 1, d.year, d.day)]
  {
    UpdateCurrentDate(s, YearBefore(s.currentDate), false)
  }

  /** `showToday`: display today's month. */
  function ShowToday(s: State, today: Date): (r: Step)
    ensures 0 <= today.year <= 9999 ==> r.state.currentDate == today
    ensures 0 <= today.year <= 9999 ==> r == Step(s.(currentDate := today), CommitEvents(s.currentDate, today))
    ensures !(0 <= today.year <= 9999) ==> r == Step(s, [])
  {
    UpdateCurrentDate(s, today, false)
  }

  /** Pressing the today button a second time changes nothing and emits nothing. */
  lemma TodayButtonIdempotent(s: State, today: Date)
    ensures var first := ShowToday(s, today);
            ShowToday(first.state, today) == Step(first.state, [])
  {
    UpdateCurrentDateIdempotent(s, today, false);
  }

  /** The month steppers undo each other for a day every month has. */
  lemma MonthSteppersRoundTrip(s: State)
    requires WellFormed(s) && s.currentDate.day <= 28
    requires 0 <= s.currentDate.year && MonthAfter(s.currentDate).year <= 9999
    ensures ShowPreviousMonth(ShowNextMonth(s).state).state.currentDate == s.currentDate
  {
    MonthStepsRoundTrip(s.currentDate);
  }

  /** The year steppers undo each other for every day but 29 February. */
  lemma YearSteppersRoundTrip(s: State)
    requires WellFormed(s) && !(s.currentDate.month == 1 && s.currentDate.day == 29)
    requires 0 <= s.currentDate.year && s.currentDate.year + 1 <= 9999
    ensures ShowPreviousYear(ShowNextYear(s).state).state.currentDate == s.currentDate
  {
    YearStepsRoundTrip(s.currentDate);
  }

  // ---------------------------------------------------------------------------
  // Month select and year input

  /** The day of month `month` of `year` closest to `day`. */
  function Clamped(year: int, month: int, day: int): (r: Date)
    requires 0 <= month < 12 && 1 <= day
    ensures ValidDate(r) && r.year == year && r.month == month
    ensures r.day == Min(day, DaysInMonth(year, month))
  {
    Date(year, month, Min(day, DaysInMonth(year, month)))
  }

  /** The year `new Date(year, month, day)` lands in: years 0 to 99 are read as 1900 to 1999. */
  function ConstructorYear(year: int): (r: int)
    ensures 0 <= year <= 99 ==> r == 1900 + year
    ensures !(0 <= year <= 99) ==> r == year
  {
    if 0 <= year <= 99 then 1900 + year else year
  }

  /**
    The date `onMonthSelect` commits as written: built with `new Date(year, month, day)`,
    so a displayed year from 0 to 99 turns into 1900 to 1999.
   */
  function MonthSelectTargetAsWritten(current: Date, selected: int): (r: Date)
    requires ValidDate(current) && 1 <= selected <= 12
    ensures ValidDate(r) && r.month == selected - 1
    ensures r.year == ConstructorYear(current.year)
  {
    Clamped(ConstructorYear(current.year), selected - 1, current.day)
  }

  /** The date month select is meant to commit: same year, chosen month, day clamped. */
  function MonthSelectTarget(current: Date, selected: int): (r: Date)
    requires ValidDate(current) && 1 <= selected <= 12
    ensures ValidDate(r) && r.year == current.year && r.month == selected - 1
    ensures r.day == Min(current.day, DaysInMonth(current.year, selected - 1))
  {
    Clamped(current.year, selected - 1, current.day)
  }

  /** The two readings differ exactly for the years 0 to 99. */
  lemma MonthSelectReadingsDiffer(current: Date, selected: int)
    requires ValidDate(current) && 1 <= selected <= 12
    ensures MonthSelectTargetAsWritten(current, selected) != MonthSelectTarget(current, selected)
            <==> 0 <= current.year <= 99
  {
  }

  /** The date month select commits under either reading. */
  function MonthSelectDate(variant: Variant, current: Date, selected: int): (r: Date)
    requires ValidDate(current) && 1 <= selected <= 12
    ensures ValidDate(r) && r.month == selected - 1
    ensures r.year == (if variant.AsWritten? then ConstructorYear(current.year) else current.year)
    ensures r.day == Min(current.day, DaysInMonth(r.year, r.month))
  {
    if variant.AsWritten? then MonthSelectTargetAsWritten(current, selected)
    else MonthSelectTarget(current, selected)
  }

  /** `onMonthSelect` for option `selected` (1 to 12). */
  function OnMonthSelect(variant: Variant, s: State, selected: int): (r: Step)
    requires WellFormed(s) && 1 <= selected <= 12
    ensures !(0 <= s.currentDate.year <= 9999) ==> r == Step(s, [])
    ensures 0 <= s.currentDate.year <= 9999 ==>
              var d := MonthSelectDate(variant, s.currentDate, selected);
              r == Step(s.(currentDate := d), CommitEvents(s.currentDate, d))
  {
    UpdateCurrentDate(s, MonthSelectDate(variant, s.currentDate, selected), false)
  }

  /**
    Selecting another month and then the original one again returns to the same day and
    month; as written, a year from 0 to 99 comes back as 1900 to 1999.
   */
  lemma MonthSelectRoundTrip(variant: Variant, s: State, selected: int)
    requires WellFormed(s) && 1 <= selected <= 12 && 0 <= s.currentDate.year <= 9999
    requires s.currentDate.day <= 28
    ensures OnMonthSelect(variant, OnMonthSelect(variant, s, selected).state, s.currentDate.month + 1).state.currentDate
            == if variant.AsWritten? then s.currentDate.(year := ConstructorYear(s.currentDate.year)) else s.currentDate
  {
    var there := MonthSelectDate(variant, s.currentDate, selected);
    assert there.day == s.currentDate.day;
    var back := MonthSelectDate(variant, there, s.currentDate.month + 1);
    assert back.year == there.year;
  }

  /** What `+input.value` gives for the year input. */
  datatype YearInput = NotANumber | Number(n: int)

  /** The year the input is reset to: today's year for junk, otherwise clamped to [0, 9999]. */
  function SanitizeYear(input: YearInput, todayYear: int): (y: int)
    ensures input.NotANumber? ==> y == todayYear
    ensures input.Number? ==> 0 <= y <= 9999
    ensures input.Number? && 0 <= input.n <= 9999 ==> y == input.n
    ensures input.Number? && input.n < 0 ==> y == 0
    ensures input.Number? && input.n > 9999 ==> y == 9999
  {
    match input
    case NotANumber => todayYear
    case Number(n) => if n < 0 then 0 else if n > 9999 then 9999 else n
  }

  /** Sanitising is idempotent: the rewritten input sanitises to itself. */
  lemma SanitizeYearIdempotent(input: YearInput, todayYear: int)
    requires 0 <= todayYear <= 9999
    ensures var y := SanitizeYear(input, todayYear);
            SanitizeYear(Number(y), todayYear) == y
  {
  }

  /** `onYearSelect` with the input's numeric reading and today's year. */
  function OnYearSelect(s: State, input: YearInput, todayYear: int): (r: Step)
    requires WellFormed(s)
    ensures var y := SanitizeYear(input, todayYear);
            0 <= y <= 9999 ==> r.state.currentDate == Clamped(y, s.currentDate.month, s.currentDate.day)
    ensures var y := SanitizeYear(input, todayYear);
            var d := Clamped(y, s.currentDate.month, s.currentDate.day);
            0 <= y <= 9999 ==> r == Step(s.(currentDate := d), CommitEvents(s.currentDate, d))
    ensures !(0 <= SanitizeYear(input, todayYear) <= 9999) ==> r == Step(s, [])
  {
    var y := SanitizeYear(input, todayYear);
    UpdateCurrentDate(s, Clamped(y, s.currentDate.month, s.currentDate.day), false)
  }

  /** Entering another year and then the original one returns to the same date, except from 29 February. */
  lemma YearSelectRoundTrip(s: State, year: int, todayYear: int)
    requires WellFormed(s) && 0 <= s.currentDate.year <= 9999
    requires !(s.currentDate.month == 1 && s.currentDate.day == 29)
    ensures OnYearSelect(OnYearSelect(s, Number(year), todayYear).state, Number(s.currentDate.year), todayYear)
              .state.currentDate == s.currentDate
  {
  }

  // ---------------------------------------------------------------------------
  // Mouse and keyboard handlers

  /** `onClick` on the cell of `target` (`None` when the click was not on a date cell). */
  function OnClick(s: State, target: Option<Date>, disableDate: Date -> bool): (r: Step)
    requires WellFormed(s) && (target.Some? ==> ValidDate(target.value))
    ensures s.props.disabled || target.None? ==> r == Step(s, [])
    ensures !s.props.disabled && target.Some? ==>
              var u := UpdateCurrentDate(s, target.value, false);
              var v := OnSelectDate(u.state, target.value, disableDate);
              r == Step(v.state, u.events + v.events)
  {
    if s.props.disabled then Step(s, [])
    else match target
      case None => Step(s, [])
      case Some(date) =>
        var u := UpdateCurrentDate(s, date, false);
        var v := OnSelectDate(u.state, date, disableDate);
        Step(v.state, u.events + v.events)
  }

  /** The events of committing `to` while showing `from`: a month change, if there is one. */
  function CommitEvents(from: Date, to: Date): (r: seq<Emitted>)
    ensures |r| <= 1
    ensures r != [] <==> MonthChanged(from, to) && 0 <= to.year <= 9999
    ensures r != [] ==> r[0] == ChangeMonth(to.month + 1, to.year, to.day)
  {
    if MonthChanged(from, to) && 0 <= to.year <= 9999 then [ChangeMonth(to.month + 1, to.year, to.day)] else []
  }

  /** Clicking a disabled date moves the display to its month but selects nothing. */
  lemma ClickOnDisabledDate(s: State, date: Date, disableDate: Date -> bool)
    requires WellFormed(s) && !s.props.disabled && ValidDate(date) && disableDate(date)
    ensures var r := OnClick(s, Some(date), disableDate);
            && r.state.value == s.value
            && r.events == CommitEvents(s.currentDate, date)
            && (0 <= date.year <= 9999 ==> r.state.currentDate == date)
  {
  }

  /** In single mode, clicking an enabled date other than the selected one selects it. */
  lemma ClickSelectsSingle(s: State, date: Date, disableDate: Date -> bool)
    requires WellFormed(s) && !s.props.disabled && !s.props.range && ValidDate(date) && !disableDate(date)
    requires s.value.Unset? || (s.value.Single? && !SameDay(s.value.date, date))
    ensures var r := OnClick(s, Some(date), disableDate);
            && r.state.value == Single(date) && r.state.currentDate == date
            && r.events == CommitEvents(s.currentDate, date) + [SelectDate(IsoText(Iso(date)))]
  {
    var u := UpdateCurrentDate(s, date, false);
    assert u.state.value == s.value && u.events == CommitEvents(s.currentDate, date);
  }

  /** In range mode, clicking an enabled date extends or restarts the range and announces it. */
  lemma ClickSelectsRange(s: State, date: Date, disableDate: Date -> bool)
    requires WellFormed(s) && !s.props.disabled && s.props.range && ValidDate(date) && !disableDate(date)
    ensures var r := OnClick(s, Some(date), disableDate);
            var v := RangeValue(s.value, date);
            && r.state.value == Many(v)
            && r.events == CommitEvents(s.currentDate, date) + [SelectDate(IsoList(IsoAll(v)))]
  {
    var u := UpdateCurrentDate(s, date, false);
    assert u.state.value == s.value && u.events == CommitEvents(s.currentDate, date);
  }

  datatype Key = ArrowLeft | ArrowRight | ArrowUp | ArrowDown | PageUp | PageDown
               | Home | End | Space | Enter | OtherKey

  /** The search direction a navigation key asks for, if it is one. */
  function KeyDirection(key: Key, shift: bool): (r: Option<Direction>)
    ensures r.None? <==> key in {Space, Enter, OtherKey}
    ensures r.Some? ==> (DayBounded(r.value) <==> key in {ArrowLeft, ArrowRight, ArrowUp, ArrowDown})
  {
    match key
    case ArrowLeft => Some(PreviousDay)
    case ArrowRight => Some(NextDay)
    case ArrowUp => Some(PreviousSameWeekDay)
    case ArrowDown => Some(NextSameWeekDay)
    case PageUp => Some(if shift then PreviousYear else PreviousMonth)
    case PageDown => Some(if shift then NextYear else NextMonth)
    case Home => Some(FirstOfMonth)
    case End => Some(LastOfMonth)
    case _ => None
  }

  /** `onKeyDown`: navigation keys move the focused date, Space and Enter select it. */
  function OnKeyDown(variant: Variant, s: State, key: Key, shift: bool, disableDate: Date -> bool): (r: Step)
    requires WellFormed(s)
    ensures s.props.disabled ==> r == Step(s, [])
    ensures !s.props.disabled && KeyDirection(key, shift).Some? ==>
              r == UpdateCurrentDate(s, AvailableDate(variant, s.currentDate, KeyDirection(key, shift).value,
                                                      disableDate, s.props.maxSearchDays), true)
    ensures !s.props.disabled && key in {Space, Enter} ==> r == OnSelectDate(s, s.currentDate, disableDate)
    ensures key == OtherKey ==> r == Step(s, [])
  {
    if s.props.disabled then Step(s, [])
    else match KeyDirection(key, shift)
      case Some(dir) =>
        var target := AvailableDate(variant, s.currentDate, dir, disableDate, s.props.maxSearchDays);
        UpdateCurrentDate(s, target, true)
      case None =>
        if key == Space || key == Enter then OnSelectDate(s, s.currentDate, disableDate) else Step(s, [])
  }

  /** A navigation key never moves the focus onto a disabled date: it stays put instead. */
  lemma KeyboardNeverFocusesDisabled(variant: Variant, s: State, key: Key, shift: bool, disableDate: Date -> bool)
    requires WellFormed(s) && !disableDate(s.currentDate) && KeyDirection(key, shift).Some?
    ensures !disableDate(OnKeyDown(variant, s, key, shift, disableDate).state.currentDate)
  {
    if !s.props.disabled {
      var target := AvailableDate(variant, s.currentDate, KeyDirection(key, shift).value,
                                  disableDate, s.props.maxSearchDays);
      assert target == s.currentDate || !disableDate(target);
    }
  }

  /** With nothing disabled, a navigation key moves straight to the raw target. */
  lemma KeyMovesToRawTarget(variant: Variant, s: State, key: Key, shift: bool, disableDate: Date -> bool)
    requires WellFormed(s) && !s.props.disabled && KeyDirection(key, shift).Some?
    requires forall d :: !disableDate(d)
    ensures OnKeyDown(variant, s, key, shift, disableDate)
            == UpdateCurrentDate(s, RawTarget(s.currentDate, KeyDirection(key, shift).value), true)
  {
    var raw := RawTarget(s.currentDate, KeyDirection(key, shift).value);
    assert !disableDate(raw);
  }

  /** The two readings differ only on PageUp in January and PageDown in December. */
  lemma KeyReadingsAgreeAwayFromWrap(s: State, key: Key, shift: bool, disableDate: Date -> bool)
    requires WellFormed(s)
    requires !(key == PageUp && !shift && s.currentDate.month == 0)
    requires !(key == PageDown && !shift && s.currentDate.month == 11)
    ensures OnKeyDown(AsWritten, s, key, shift, disableDate) == OnKeyDown(Corrected, s, key, shift, disableDate)
  {
    if !s.props.disabled && KeyDirection(key, shift).Some? {
      VariantsAgreeAwayFromWrap(s.currentDate, KeyDirection(key, shift).value, disableDate, s.props.maxSearchDays);
    }
  }

  /** With nothing disabled, ArrowRight then ArrowLeft comes back to the same date. */
  lemma ArrowKeysRoundTrip(variant: Variant, s: State)
    requires WellFormed(s) && !s.props.disabled
    requires 0 <= s.currentDate.year && DayAfter(s.currentDate).year <= 9999
    ensures var noneDisabled := (d: Date) => false;
            OnKeyDown(variant, OnKeyDown(variant, s, ArrowRight, false, noneDisabled).state, ArrowLeft, false, noneDisabled)
              .state.currentDate == s.currentDate
  {
    DayAfterBeforeInverse(s.currentDate);
  }

  /** `onMouseEnter` over the cell of `date`. */
  function OnMouseEnter(s: State, date: Date): (r: State)
    ensures s.props.disabled ==> r == s
    ensures !s.props.disabled ==> r == s.(hoveredDate := Some(date))
  {
    if s.props.disabled then s else s.(hoveredDate := Some(date))
  }

  /** `onMouseLeave`: the hover ends whether or not the picker is disabled. */
  function OnMouseLeave(s: State): (r: State)
    ensures r.hoveredDate.None? && r == s.(hoveredDate := None)
  {
    s.(hoveredDate := None)
  }

  /** `onFocus` on the cell of `date`: a cell other than the current one becomes current. */
  function OnFocus(s: State, date: Date): (r: Step)
    requires WellFormed(s) && ValidDate(date)
    ensures SameDay(date, s.currentDate) ==> r == Step(s, [])
    ensures !SameDay(date, s.currentDate) ==> r == UpdateCurrentDate(s, date, false)
  {
    if SameDay(date, s.currentDate) then Step(s, []) else UpdateCurrentDate(s, date, false)
  }

  /** The state after rendering, and the date whose cell receives focus, if any. */
  datatype Rendered = Rendered(state: State, focus: Option<Date>)

  /** `componentDidRender`: a pending focus move is carried out once and cleared. */
  function DidRender(s: State): (r: Rendered)
    ensures r.state == s.(moveFocusAfterMonthChanged := false)
    ensures r.focus.Some? <==> s.moveFocusAfterMonthChanged
    ensures r.focus.Some? ==> r.focus.value == s.currentDate
  {
    if s.moveFocusAfterMonthChanged then Rendered(s.(moveFocusAfterMonthChanged := false), Some(s.currentDate))
    else Rendered(s, None)
  }

  /** A focus move is carried out by one render only. */
  lemma FocusMovesOnce(s: State)
    ensures DidRender(DidRender(s).state).focus.None?
  {
  }

  // ---------------------------------------------------------------------------
  // Dispatch

  /** What can happen to the picker between two renders. */
  datatype Input =
    | Click(target: Option<Date>)
    | KeyDown(key: Key, shift: bool)
    | MouseEnter(hovered: Date)
    | MouseLeave
    | Focus(focused: Date)
    | MonthSelected(selected: int)
    | YearEntered(year: YearInput)
    | PreviousMonthClicked | NextMonthClicked | PreviousYearClicked | NextYearClicked
    | TodayClicked
    | ClearClicked
    | RangeSet(range: bool)
    | StartDateSet(start: Option<Date>)
    | ValueSet(value: Value)

  /** Inputs the page can deliver: cell dates are calendar dates, month options are 1 to 12. */
  predicate InputValid(input: Input) {
    match input
    case Click(target) => target.Some? ==> ValidDate(target.value)
    case MouseEnter(d) => ValidDate(d)
    case Focus(d) => ValidDate(d)
    case MonthSelected(m) => 1 <= m <= 12
    case StartDateSet(start) => start.Some? ==> ValidDate(start.value)
    case ValueSet(v) => ValueValid(v)
    case _ => true
  }

  /**
    One input, handled, on the day `today`, under the reading `variant` of the two
    discrepancies. `None` only when the `value` property is set to an empty array, which
    leaves the displayed date undefined.
   */
  function Dispatch(variant: Variant, s: State, input: Input, today: Date, disableDate: Date -> bool): (r: Option<Step>)
    requires WellFormed(s) && InputValid(input) && ValidDate(today)
    ensures r.None? <==> input.ValueSet? && EmptyArray(input.value)
    ensures s.props.disabled && (input.Click? || input.KeyDown? || input.MouseEnter?) ==> r == Some(Step(s, []))
  {
    match input
    case Click(target) => Some(OnClick(s, target, disableDate))
    case KeyDown(key, shift) => Some(OnKeyDown(variant, s, key, shift, disableDate))
    case MouseEnter(d) => Some(Step(OnMouseEnter(s, d), []))
    case MouseLeave => Some(Step(OnMouseLeave(s), []))
    case Focus(d) => Some(OnFocus(s, d))
    case MonthSelected(m) => Some(OnMonthSelect(variant, s, m))
    case YearEntered(y) => Some(OnYearSelect(s, y, today.year))
    case PreviousMonthClicked => Some(ShowPreviousMonth(s))
    case NextMonthClicked => Some(ShowNextMonth(s))
    case PreviousYearClicked => Some(ShowPreviousYear(s))
    case NextYearClicked => Some(ShowNextYear(s))
    case TodayClicked => Some(ShowToday(s, today))
    case ClearClicked => Some(Clear(s))
    case RangeSet(range) => Some(SetRange(s, range))
    case StartDateSet(start) => Some(Step(SetStartDate(s, start, today), []))
    case ValueSet(v) =>
      match SetValue(s, v)
      case None => None
      case Some(t) => Some(Step(t, []))
  }

  /** A click keeps the picker's state well formed. */
  lemma ClickKeepsWellFormed(s: State, target: Option<Date>, disableDate: Date -> bool)
    requires WellFormed(s) && (target.Some? ==> ValidDate(target.value))
    ensures WellFormed(OnClick(s, target, disableDate).state)
  {
    if !s.props.disabled && target.Some? {
      OnSelectDateWellFormed(UpdateCurrentDate(s, target.value, false).state, target.value, disableDate);
    }
  }

  /** A key press keeps the picker's state well formed, under either reading. */
  lemma KeyKeepsWellFormed(variant: Variant, s: State, key: Key, shift: bool, disableDate: Date -> bool)
    requires WellFormed(s)
    ensures WellFormed(OnKeyDown(variant, s, key, shift, disableDate).state)
  {
    if !s.props.disabled && key in {Space, Enter} {
      OnSelectDateWellFormed(s, s.currentDate, disableDate);
    }
  }

  /** Every handled input keeps the picker's state well formed. */
  lemma DispatchPreservesWellFormed(variant: Variant, s: State, input: Input, today: Date, disableDate: Date -> bool)
    requires WellFormed(s) && InputValid(input) && ValidDate(today)
    ensures var r := Dispatch(variant, s, input, today, disableDate);
            r.Some? ==> WellFormed(r.value.state)
  {
    match input
    case Click(target) => ClickKeepsWellFormed(s, target, disableDate);
    case KeyDown(key, shift) => KeyKeepsWellFormed(variant, s, key, shift, disableDate);
    case _ =>
  }
}

=== FILE: scenarios.dfy ===
/**
  Concrete runs of the picker: the interaction sequences of the component's test suite
  and the inputs that exhibit the two discrepancies described in the README, each
  stated as a lemma about the model.
 */
module Scenarios {
  import opened DateMath
  import opened Wrappers
  import opened IsoDate
  import opened Navigation
  import opened CalendarGrid
  import opened Picker

  /** The default properties: single selection, Sunday first, a year of search horizon. */
  function DefaultProps(): (p: Props)
    ensures !p.disabled && !p.range && p.goToRangeStartOnSelect
    ensures p.maxSearchDays == 365 && p.firstDayOfWeek == 0
  {
    Props(false, false, true, 365, 0)
  }

  /** The default properties with range selection switched on. */
  function RangeProps(): (p: Props)
    ensures !p.disabled && p.range && p.goToRangeStartOnSelect
    ensures p.maxSearchDays == 365 && p.firstDayOfWeek == 0
  {
    Props(false, true, true, 365, 0)
  }

  /** A picker showing `d` with value `v`, nothing hovered. */
  function Showing(props: Props, d: Date, v: Value, focusPending: bool): (s: State)
    ensures s.props == props && s.currentDate == d && s.value == v
    ensures s.hoveredDate.None? && s.moveFocusAfterMonthChanged == focusPending
  {
    State(props, d, v, None, focusPending)
  }

  /** The default picker showing `d` with nothing selected. */
  function At(d: Date, focusPending: bool): (s: State)
    ensures s.props == DefaultProps() && s.currentDate == d && s.value.Unset?
    ensures s.moveFocusAfterMonthChanged == focusPending
  {
    Showing(DefaultProps(), d, Unset, focusPending)
  }

  function NoneDisabled(): Date -> bool {
    (d: Date) => false
  }

  // ---------------------------------------------------------------------------
  // Keyboard navigation from 1 January 2022

  /** A navigation key with nothing disabled moves to the raw target and commits it. */
  lemma KeyStep(variant: Variant, props: Props, from: Date, v: Value, focusPending: bool, key: Key, shift: bool, to: Date)
    requires WellFormed(Showing(props, from, v, focusPending)) && !props.disabled
    requires KeyDirection(key, shift).Some?
    requires ValidDate(to) && Ord(RawTarget(from, KeyDirection(key, shift).value)) == Ord(to)
    requires 0 <= to.year <= 9999
    ensures OnKeyDown(variant, Showing(props, from, v, focusPending), key, shift, NoneDisabled())
            == Step(Showing(props, to, v, focusPending || MonthChanged(from, to)),
                    if MonthChanged(from, to) then [ChangeMonth(to.month + 1, to.year, to.day)] else [])
  {
    OrdInjective(RawTarget(from, KeyDirection(key, shift).value), to);
    KeyMovesToRawTarget(variant, Showing(props, from, v, focusPending), key, shift, NoneDisabled());
  }

  /** A day or week key whose target stays in the displayed month moves there silently. */
  lemma DayKeyStep(variant: Variant, props: Props, from: Date, v: Value, focusPending: bool, key: Key, day: int)
    requires WellFormed(Showing(props, from, v, focusPending)) && !props.disabled && 0 <= from.year <= 9999
    requires KeyDirection(key, false).Some? && DayBounded(KeyDirection(key, false).value)
    requires 1 <= day <= DaysInMonth(from.year, from.month)
    requires day - from.day == Stride(KeyDirection(key, false).value)
    ensures OnKeyDown(variant, Showing(props, from, v, focusPending), key, false, NoneDisabled())
            == Step(Showing(props, Date(from.year, from.month, day), v, focusPending), [])
  {
    var to := Date(from.year, from.month, day);
    assert Ord(to) == Ord(from) + (day - from.day);
    KeyStep(variant, props, from, v, focusPending, key, false, to);
  }

  /** Day steps forward from 1 January 2022. */
  lemma KeyboardWalkDays()
    ensures OnKeyDown(AsWritten, At(Date(2022, 0, 1), false), ArrowRight, false, NoneDisabled())
            == Step(At(Date(2022, 0, 2), false), [])
    ensures OnKeyDown(AsWritten, At(Date(2022, 0, 2), false), ArrowRight, false, NoneDisabled())
            == Step(At(Date(2022, 0, 3), false), [])
  {
    DayKeyStep(AsWritten, DefaultProps(), Date(2022, 0, 1), Unset, false, ArrowRight, 2);
    DayKeyStep(AsWritten, DefaultProps(), Date(2022, 0, 2), Unset, false, ArrowRight, 3);
  }

  /** A week down and a day back inside January 2022. */
  lemma KeyboardWalkWeeks()
    ensures OnKeyDown(AsWritten, At(Date(2022, 0, 3), false), ArrowDown, false, NoneDisabled())
            == Step(At(Date(2022, 0, 10), false), [])
    ensures OnKeyDown(AsWritten, At(Date(2022, 0, 10), false), ArrowLeft, false, NoneDisabled())
            == Step(At(Date(2022, 0, 9), false), [])
  {
    DayKeyStep(AsWritten, DefaultProps(), Date(2022, 0, 3), Unset, false, ArrowDown, 10);
    DayKeyStep(AsWritten, DefaultProps(), Date(2022, 0, 10), Unset, false, ArrowLeft, 9);
  }

  /** A week up from 9 January 2022 returns to 2 January. */
  lemma KeyboardWalkWeekUp()
    ensures OnKeyDown(AsWritten, At(Date(2022, 0, 9), false), ArrowUp, false, NoneDisabled())
            == Step(At(Date(2022, 0, 2), false), [])
  {
    DayKeyStep(AsWritten, DefaultProps(), Date(2022, 0, 9), Unset, false, ArrowUp, 2);
  }

  /** End and Home stay in January 2022 and announce nothing. */
  lemma KeyboardEndHome()
    ensures OnKeyDown(AsWritten, At(Date(2022, 0, 2), false), End, false, NoneDisabled())
            == Step(At(Date(2022, 0, 31), false), [])
    ensures OnKeyDown(AsWritten, At(Date(2022, 0, 31), false), Home, false, NoneDisabled())
            == Step(At(Date(2022, 0, 1), false), [])
  {
    assert RawTarget(Date(2022, 0, 2), LastOfMonth) == Date(2022, 0, 31);
    KeyStep(AsWritten, DefaultProps(), Date(2022, 0, 2), Unset, false, End, false, Date(2022, 0, 31));
    assert RawTarget(Date(2022, 0, 31), FirstOfMonth) == Date(2022, 0, 1);
    KeyStep(AsWritten, DefaultProps(), Date(2022, 0, 31), Unset, false, Home, false, Date(2022, 0, 1));
  }

  /**
    PageDown changes the month, announces it and leaves a focus move pending; the render
    that follows carries the move out, and PageUp then returns to January.
   */
  lemma KeyboardPageMonths()
    ensures OnKeyDown(AsWritten, At(Date(2022, 0, 1), false), PageDown, false, NoneDisabled())
            == Step(At(Date(2022, 1, 1), true), [ChangeMonth(2, 2022, 1)])
    ensures DidRender(At(Date(2022, 1, 1), true)) == Rendered(At(Date(2022, 1, 1), false), Some(Date(2022, 1, 1)))
    ensures OnKeyDown(AsWritten, At(Date(2022, 1, 1), false), PageUp, false, NoneDisabled())
            == Step(At(Date(2022, 0, 1), true), [ChangeMonth(1, 2022, 1)])
  {
    assert RawTarget(Date(2022, 0, 1), NextMonth) == Date(2022, 1, 1);
    KeyStep(AsWritten, DefaultProps(), Date(2022, 0, 1), Unset, false, PageDown, false, Date(2022, 1, 1));
    assert RawTarget(Date(2022, 1, 1), PreviousMonth) == Date(2022, 0, 1);
    KeyStep(AsWritten, DefaultProps(), Date(2022, 1, 1), Unset, false, PageUp, false, Date(2022, 0, 1));
  }

  // ---------------------------------------------------------------------------
  // The grid

  /** Day numbers of the dates the grid and selection scenarios below use. */
  lemma DayNumbers2021()
    ensures Ord(Date(2021, 10, 28)) == 738488
    ensures Ord(Date(2021, 11, 1)) == 738491
    ensures Ord(Date(2021, 11, 26)) == 738516
    ensures Ord(Date(2022, 0, 1)) == 738522
  {
    DaysBeforeYearClosedForm(2022);
    assert DaysBeforeYear(2022) == 738521;
    DaysBeforeNextYear(2021);
    assert !IsLeapYear(2021);
    assert DaysBeforeYear(2021) == 738156;
  }

  /** The grid starts `Leading` days before the first of the month. */
  lemma GridStartsAt(date: Date, anchor: int, start: Date)
    requires ValidDate(date) && 1 <= anchor <= 7 && ValidDate(start)
    requires Ord(start) + Leading(date, anchor) == Ord(FirstDayOfMonth(date))
    ensures DaysOfMonth(date, anchor)[0] == start
  {
    OrdInjective(DaysOfMonth(date, anchor)[0], start);
  }

  /** The grid of January 2022 (Sunday first) starts on Sunday 26 December 2021. */
  lemma GridOfJanuary2022()
    ensures DaysOfMonth(Date(2022, 0, 1), Anchor(0))[0] == Date(2021, 11, 26)
  {
    DayNumbers2021();
    assert DayOfWeek(FirstDayOfMonth(Date(2022, 0, 1))) == 6;
    GridStartsAt(Date(2022, 0, 1), 7, Date(2021, 11, 26));
  }

  /** The grid of December 2021 (Sunday first) starts on Sunday 28 November 2021. */
  lemma GridOfDecember2021()
    ensures DaysOfMonth(Date(2021, 11, 26), Anchor(0))[0] == Date(2021, 10, 28)
  {
    DayNumbers2021();
    assert DayOfWeek(FirstDayOfMonth(Date(2021, 11, 26))) == 3;
    GridStartsAt(Date(2021, 11, 26), 7, Date(2021, 10, 28));
  }

  // ---------------------------------------------------------------------------
  // Selecting with clicks and keys

  /** In single mode a click on another enabled date shows it, selects it and emits its ISO string. */
  lemma ClickSelects(props: Props, from: Date, v: Value, focusPending: bool, d: Date)
    requires WellFormed(Showing(props, from, v, focusPending)) && !props.disabled && !props.range
    requires ValidDate(d) && 0 <= d.year <= 9999
    requires v.Unset? || (v.Single? && !SameDay(v.date, d))
    ensures OnClick(Showing(props, from, v, focusPending), Some(d), NoneDisabled())
            == Step(Showing(props, d, Single(d), focusPending), CommitEvents(from, d) + [SelectDate(IsoText(Iso(d)))])
  {
  }

  /** Space or Enter selects the focused date in single mode, replacing a different selection. */
  lemma KeySelects(props: Props, d: Date, previous: Date, focusPending: bool, key: Key)
    requires WellFormed(Showing(props, d, Single(previous), focusPending)) && !props.disabled && !props.range
    requires !SameDay(previous, d) && 0 <= d.year <= 9999
    requires key == Space || key == Enter
    ensures OnKeyDown(AsWritten, Showing(props, d, Single(previous), focusPending), key, false, NoneDisabled())
            == Step(Showing(props, d, Single(d), focusPending), [SelectDate(IsoText(Iso(d)))])
  {
  }

  lemma IsoOfDecember26()
    ensures Iso(Date(2021, 11, 26)) == "2021-12-26"
  {
  }

  lemma IsoOfDecember27()
    ensures Iso(Date(2021, 11, 27)) == "2021-12-27"
  {
  }

  lemma IsoOfJanuary3()
    ensures Iso(Date(2022, 0, 3)) == "2022-01-03"
  {
  }

  lemma IsoOfNovember28()
    ensures Iso(Date(2021, 10, 28)) == "2021-11-28"
  {
  }

  lemma IsoOfNovember29()
    ensures Iso(Date(2021, 10, 29)) == "2021-11-29"
  {
  }

  /** Clicking the first cell of January 2022 shows December and selects 26 December 2021. */
  lemma ClickFirstCell()
    ensures OnClick(At(Date(2022, 0, 1), false), Some(Date(2021, 11, 26)), NoneDisabled())
            == Step(Showing(DefaultProps(), Date(2021, 11, 26), Single(Date(2021, 11, 26)), false),
                    [ChangeMonth(12, 2021, 26), SelectDate(IsoText("2021-12-26"))])
  {
    ClickSelects(DefaultProps(), Date(2022, 0, 1), Unset, false, Date(2021, 11, 26));
    IsoOfDecember26();
  }

  // The keyboard part of the selection test, each step starting from the state the
  // previous one left. No render happens in between, so a pending focus move stays pending.

  /** ArrowRight then Space from 26 December 2021 selects 27 December. */
  lemma SelectNextDay()
    ensures OnKeyDown(AsWritten, Showing(DefaultProps(), Date(2021, 11, 26), Single(Date(2021, 11, 26)), false),
                      ArrowRight, false, NoneDisabled())
            == Step(Showing(DefaultProps(), Date(2021, 11, 27), Single(Date(2021, 11, 26)), false), [])
    ensures OnKeyDown(AsWritten, Showing(DefaultProps(), Date(2021, 11, 27), Single(Date(2021, 11, 26)), false),
                      Space, false, NoneDisabled())
            == Step(Showing(DefaultProps(), Date(2021, 11, 27), Single(Date(2021, 11, 27)), false),
                    [SelectDate(IsoText("2021-12-27"))])
  {
    DayKeyStep(AsWritten, DefaultProps(), Date(2021, 11, 26), Single(Date(2021, 11, 26)), false, ArrowRight, 27);
    KeySelects(DefaultProps(), Date(2021, 11, 27), Date(2021, 11, 26), false, Space);
    IsoOfDecember27();
  }

  /** A week after 27 December of any year is 3 January of the next. */
  lemma WeekAcrossYearEnd(y: int)
    ensures Ord(Date(y + 1, 0, 3)) == Ord(Date(y, 11, 27)) + 7
  {
    DaysBeforeNextYear(y);
  }

  /** ArrowDown from 27 December crosses into January, announcing the new month. */
  lemma ArrowDownAcrossYearEnd(props: Props, y: int, v: Value, focusPending: bool)
    requires WellFormed(Showing(props, Date(y, 11, 27), v, focusPending)) && !props.disabled
    requires 0 <= y && y + 1 <= 9999
    ensures OnKeyDown(AsWritten, Showing(props, Date(y, 11, 27), v, focusPending), ArrowDown, false, NoneDisabled())
            == Step(Showing(props, Date(y + 1, 0, 3), v, true), [ChangeMonth(1, y + 1, 3)])
  {
    WeekAcrossYearEnd(y);
    KeyStep(AsWritten, props, Date(y, 11, 27), v, focusPending, ArrowDown, false, Date(y + 1, 0, 3));
  }

  /** ArrowUp from 3 January crosses back into December, announcing the month. */
  lemma ArrowUpAcrossYearEnd(props: Props, y: int, v: Value, focusPending: bool)
    requires WellFormed(Showing(props, Date(y + 1, 0, 3), v, focusPending)) && !props.disabled
    requires 0 <= y && y + 1 <= 9999
    ensures OnKeyDown(AsWritten, Showing(props, Date(y + 1, 0, 3), v, focusPending), ArrowUp, false, NoneDisabled())
            == Step(Showing(props, Date(y, 11, 27), v, true), [ChangeMonth(12, y, 27)])
  {
    WeekAcrossYearEnd(y);
    KeyStep(AsWritten, props, Date(y + 1, 0, 3), v, focusPending, ArrowUp, false, Date(y, 11, 27));
  }

  /** ArrowDown from 27 December 2021 crosses into January 2022, announcing the new month. */
  lemma WeekIntoNewYear()
    ensures OnKeyDown(AsWritten, Showing(DefaultProps(), Date(2021, 11, 27), Single(Date(2021, 11, 27)), false),
                      ArrowDown, false, NoneDisabled())
            == Step(Showing(DefaultProps(), Date(2022, 0, 3), Single(Date(2021, 11, 27)), true),
                    [ChangeMonth(1, 2022, 3)])
  {
    ArrowDownAcrossYearEnd(DefaultProps(), 2021, Single(Date(2021, 11, 27)), false);
  }

  /** Enter on 3 January 2022 selects it. */
  lemma EnterSelectsNewYearDate()
    ensures OnKeyDown(AsWritten, Showing(DefaultProps(), Date(2022, 0, 3), Single(Date(2021, 11, 27)), true),
                      Enter, false, NoneDisabled())
            == Step(Showing(DefaultProps(), Date(2022, 0, 3), Single(Date(2022, 0, 3)), true),
                    [SelectDate(IsoText("2022-01-03"))])
  {
    KeySelects(DefaultProps(), Date(2022, 0, 3), Date(2021, 11, 27), true, Enter);
    IsoOfJanuary3();
  }

  /** ArrowUp from 3 January 2022 crosses back into December 2021, announcing the month. */
  lemma WeekBackIntoOldYear()
    ensures OnKeyDown(AsWritten, Showing(DefaultProps(), Date(2022, 0, 3), Single(Date(2022, 0, 3)), true),
                      ArrowUp, false, NoneDisabled())
            == Step(Showing(DefaultProps(), Date(2021, 11, 27), Single(Date(2022, 0, 3)), true),
                    [ChangeMonth(12, 2021, 27)])
  {
    ArrowUpAcrossYearEnd(DefaultProps(), 2021, Single(Date(2022, 0, 3)), true);
  }

  /** Enter on 27 December 2021 selects it again. */
  lemma EnterSelectsDecember27()
    ensures OnKeyDown(AsWritten, Showing(DefaultProps(), Date(2021, 11, 27), Single(Date(2022, 0, 3)), true),
                      Enter, false, NoneDisabled())
            == Step(Showing(DefaultProps(), Date(2021, 11, 27), Single(Date(2021, 11, 27)), true),
                    [SelectDate(IsoText("2021-12-27"))])
  {
    KeySelects(DefaultProps(), Date(2021, 11, 27), Date(2022, 0, 3), true, Enter);
    IsoOfDecember27();
  }

  /** ArrowLeft then Enter from 27 December 2021 selects 26 December. */
  lemma SelectPreviousDay()
    ensures OnKeyDown(AsWritten, Showing(DefaultProps(), Date(2021, 11, 27), Single(Date(2021, 11, 27)), true),
                      ArrowLeft, false, NoneDisabled())
            == Step(Showing(DefaultProps(), Date(2021, 11, 26), Single(Date(2021, 11, 27)), true), [])
    ensures OnKeyDown(AsWritten, Showing(DefaultProps(), Date(2021, 11, 26), Single(Date(2021, 11, 27)), true),
                      Enter, false, NoneDisabled())
            == Step(Showing(DefaultProps(), Date(2021, 11, 26), Single(Date(2021, 11, 26)), true),
                    [SelectDate(IsoText("2021-12-26"))])
  {
    DayKeyStep(AsWritten, DefaultProps(), Date(2021, 11, 27), Single(Date(2021, 11, 27)), true, ArrowLeft, 26);
    KeySelects(DefaultProps(), Date(2021, 11, 26), Date(2021, 11, 27), true, Enter);
    IsoOfDecember26();
  }

  // ---------------------------------------------------------------------------
  // Range selection

  /** Switching range selection on drops the value (16 May 1989) and emits an empty selection. */
  lemma RangeSwitchClears()
    ensures SetRange(Showing(DefaultProps(), Date(1989, 4, 16), Single(Date(1989, 4, 16)), false), true)
            == Step(Showing(RangeProps(), Date(1989, 4, 16), Unset, false), [SelectDate(NoDate)])
  {
  }

  /**
    The selection test switches to range mode where its keyboard part left off; the render
    that follows carries out the focus move still pending from January.
   */
  lemma SelectionSwitchesToRange()
    ensures SetRange(Showing(DefaultProps(), Date(2021, 11, 26), Single(Date(2021, 11, 26)), true), true)
            == Step(Showing(RangeProps(), Date(2021, 11, 26), Unset, true), [SelectDate(NoDate)])
    ensures DidRender(Showing(RangeProps(), Date(2021, 11, 26), Unset, true))
            == Rendered(Showing(RangeProps(), Date(2021, 11, 26), Unset, false), Some(Date(2021, 11, 26)))
  {
  }

  /** In range mode a click with no selection starts a range at the clicked date. */
  lemma ClickStartsRange(props: Props, from: Date, focusPending: bool, d: Date)
    requires WellFormed(Showing(props, from, Unset, focusPending)) && !props.disabled && props.range
    requires ValidDate(d) && 0 <= d.year <= 9999
    ensures OnClick(Showing(props, from, Unset, focusPending), Some(d), NoneDisabled())
            == Step(Showing(props, d, Many([d]), focusPending), CommitEvents(from, d) + [SelectDate(IsoList([Iso(d)]))])
  {
    var s := Showing(props, from, Unset, focusPending);
    var u := UpdateCurrentDate(s, d, false);
    assert u == Step(Showing(props, d, Unset, focusPending), CommitEvents(from, d));
    assert RangeValue(Unset, d) == [d];
    assert IsoAll([d]) == [Iso(d)];
    assert OnSelectDate(u.state, d, NoneDisabled())
           == Step(Showing(props, d, Many([d]), focusPending), [SelectDate(IsoList([Iso(d)]))]);
  }

  /** Clicking the first cell of December 2021 starts a range on 28 November. */
  lemma RangeClickStarts()
    ensures OnClick(Showing(RangeProps(), Date(2021, 11, 26), Unset, false), Some(Date(2021, 10, 28)), NoneDisabled())
            == Step(Showing(RangeProps(), Date(2021, 10, 28), Many([Date(2021, 10, 28)]), false),
                    [ChangeMonth(11, 2021, 28), SelectDate(IsoList(["2021-11-28"]))])
  {
    ClickStartsRange(RangeProps(), Date(2021, 11, 26), false, Date(2021, 10, 28));
    IsoOfNovember28();
  }

  /** Space on a later date completes the range; the display returns to its start. */
  lemma KeyCompletesRange(props: Props, start: Date, d: Date, focusPending: bool)
    requires WellFormed(Showing(props, d, Many([start]), focusPending)) && !props.disabled && props.range
    requires props.goToRangeStartOnSelect && ValidDate(start) && Ord(start) < Ord(d) && 0 <= d.year <= 9999
    ensures OnKeyDown(AsWritten, Showing(props, d, Many([start]), focusPending), Space, false, NoneDisabled())
            == Step(Showing(props, start, Many([start, d]), focusPending), [SelectDate(IsoList([Iso(start), Iso(d)]))])
  {
    assert IsoAll([start, d]) == [Iso(start), Iso(d)];
  }

  /** ArrowRight then Space on 29 November completes the range begun on 28 November. */
  lemma RangeKeyCompletes()
    ensures OnKeyDown(AsWritten, Showing(RangeProps(), Date(2021, 10, 28), Many([Date(2021, 10, 28)]), false),
                      ArrowRight, false, NoneDisabled())
            == Step(Showing(RangeProps(), Date(2021, 10, 29), Many([Date(2021, 10, 28)]), false), [])
    ensures OnKeyDown(AsWritten, Showing(RangeProps(), Date(2021, 10, 29), Many([Date(2021, 10, 28)]), false),
                      Space, false, NoneDisabled())
            == Step(Showing(RangeProps(), Date(2021, 10, 28), Many([Date(2021, 10, 28), Date(2021, 10, 29)]), false),
                    [SelectDate(IsoList(["2021-11-28", "2021-11-29"]))])
  {
    DayKeyStep(AsWritten, RangeProps(), Date(2021, 10, 28), Many([Date(2021, 10, 28)]), false, ArrowRight, 29);
    KeyCompletesRange(RangeProps(), Date(2021, 10, 28), Date(2021, 10, 29), false);
    IsoOfNovember28();
    IsoOfNovember29();
  }

  /** The range [1 January, 1 March] shows January or March, as the property asks. */
  lemma GoToRangeStartOnSelect()
    ensures SetValue(Showing(RangeProps(), Date(2022, 0, 1), Unset, false),
                     Many([Date(2022, 0, 1), Date(2022, 2, 1)]))
            == Some(Showing(RangeProps(), Date(2022, 0, 1), Many([Date(2022, 0, 1), Date(2022, 2, 1)]), false))
    ensures SetValue(Showing(RangeProps().(goToRangeStartOnSelect := false), Date(2022, 0, 1), Unset, false),
                     Many([Date(2022, 0, 1), Date(2022, 2, 1)]))
            == Some(Showing(RangeProps().(goToRangeStartOnSelect := false), Date(2022, 2, 1),
                            Many([Date(2022, 0, 1), Date(2022, 2, 1)]), false))
  {
  }

  // ---------------------------------------------------------------------------
  // Month select, year input and steppers

  /** Choosing February from 31 January 2022 clamps to 28 February. */
  lemma MonthSelectClamps()
    ensures OnMonthSelect(AsWritten, At(Date(2022, 0, 31), false), 2).events == [ChangeMonth(2, 2022, 28)]
  {
  }

  /** Choosing May from 1 January 2022, then the month steppers back and forth. */
  lemma MonthChanges()
    ensures OnMonthSelect(AsWritten, At(Date(2022, 0, 1), false), 5) == Step(At(Date(2022, 4, 1), false), [ChangeMonth(5, 2022, 1)])
    ensures ShowPreviousMonth(At(Date(2022, 4, 1), false)) == Step(At(Date(2022, 3, 1), false), [ChangeMonth(4, 2022, 1)])
    ensures ShowNextMonth(At(Date(2022, 3, 1), false)) == Step(At(Date(2022, 4, 1), false), [ChangeMonth(5, 2022, 1)])
  {
  }

  /** Entering 2021 from 29 February 2020 clamps to 28 February 2021. */
  lemma YearInputClamps()
    ensures OnYearSelect(At(Date(2020, 1, 29), false), Number(2021), 2022).events == [ChangeMonth(2, 2021, 28)]
  {
  }

  /** Entering 1989 from 1 January 2022, then the year steppers back and forth. */
  lemma YearChanges()
    ensures OnYearSelect(At(Date(2022, 0, 1), false), Number(1989), 2022)
            == Step(At(Date(1989, 0, 1), false), [ChangeMonth(1, 1989, 1)])
    ensures ShowPreviousYear(At(Date(1989, 0, 1), false)) == Step(At(Date(1988, 0, 1), false), [ChangeMonth(1, 1988, 1)])
    ensures ShowNextYear(At(Date(1988, 0, 1), false)) == Step(At(Date(1989, 0, 1), false), [ChangeMonth(1, 1989, 1)])
  {
  }

  /** Out-of-range year input is reset to the nearest bound. */
  lemma YearInputResets()
    ensures SanitizeYear(Number(100000), 2022) == 9999
    ensures SanitizeYear(Number(-1), 2022) == 0
    ensures OnYearSelect(At(Date(2022, 0, 1), false), Number(100000), 2022).state.currentDate == Date(9999, 0, 1)
  {
  }

  /** The today button moves the display from January 1989 to today's date. */
  lemma TodayJumps(today: Date)
    requires ValidDate(today) && 0 <= today.year <= 9999
    ensures ShowToday(At(Date(1989, 0, 1), false), today).state.currentDate.year == today.year
  {
  }

  /** Clearing after selecting 26 December 2021 drops the value and emits an empty selection. */
  lemma ClearAfterSelection()
    ensures Clear(Showing(DefaultProps(), Date(2021, 11, 26), Single(Date(2021, 11, 26)), false))
            == Step(At(Date(2021, 11, 26), false), [SelectDate(NoDate)])
  {
  }

  // ---------------------------------------------------------------------------
  // Guards and hovering

  /** A disabled picker ignores clicks and keys. */
  lemma DisabledPickerIgnoresInput()
    ensures OnClick(Showing(DefaultProps().(disabled := true), Date(2022, 0, 1), Unset, false),
                    Some(Date(2021, 11, 26)), NoneDisabled())
            == Step(Showing(DefaultProps().(disabled := true), Date(2022, 0, 1), Unset, false), [])
    ensures OnKeyDown(AsWritten, Showing(DefaultProps().(disabled := true), Date(2022, 0, 1), Unset, false),
                      ArrowRight, false, NoneDisabled())
            == Step(Showing(DefaultProps().(disabled := true), Date(2022, 0, 1), Unset, false), [])
    ensures OnKeyDown(AsWritten, Showing(DefaultProps().(disabled := true), Date(2022, 0, 1), Unset, false),
                      Space, false, NoneDisabled())
            == Step(Showing(DefaultProps().(disabled := true), Date(2022, 0, 1), Unset, false), [])
  {
  }

  /** Clicking a disabled date emits no selection and leaves the value alone. */
  lemma DisabledDateNotSelected()
    ensures OnClick(At(Date(2022, 0, 1), false), Some(Date(2022, 0, 1)), (d: Date) => d == Date(2022, 0, 1))
            == Step(At(Date(2022, 0, 1), false), [])
  {
  }

  /** Hovering sets the hovered date and leaving clears it; a disabled picker ignores the hover. */
  lemma HoverAndLeave()
    ensures OnMouseEnter(Showing(RangeProps(), Date(2022, 0, 1), Unset, false), Date(2022, 0, 5)).hoveredDate
            == Some(Date(2022, 0, 5))
    ensures OnMouseLeave(OnMouseEnter(Showing(RangeProps(), Date(2022, 0, 1), Unset, false), Date(2022, 0, 5)))
            == Showing(RangeProps(), Date(2022, 0, 1), Unset, false)
    ensures OnMouseEnter(Showing(RangeProps().(disabled := true), Date(2022, 0, 1), Unset, false), Date(2022, 0, 5))
              .hoveredDate.None?
  {
  }

  // ---------------------------------------------------------------------------
  // The two discrepancies

  /** Only 15 December 2021 is disabled. */
  function OnlyDecember15(): Date -> bool {
    (d: Date) => d == Date(2021, 11, 15)
  }

  /**
    PageUp from 15 January 2022 with 15 December 2021 disabled: as written the search
    gives up at once and the focus stays on 15 January.
   */
  lemma PreviousMonthFromJanuaryAsWritten()
    ensures AvailableDate(AsWritten, Date(2022, 0, 15), PreviousMonth, OnlyDecember15(), 365) == Date(2022, 0, 15)
    ensures OnKeyDown(AsWritten, At(Date(2022, 0, 15), false), PageUp, false, OnlyDecember15())
            == Step(At(Date(2022, 0, 15), false), [])
  {
    AsWrittenWrapGivesUp(Date(2022, 0, 15), PreviousMonth, OnlyDecember15(), 365);
  }

  /** With the month wrapped, the same search moves on to 16 December 2021. */
  lemma PreviousMonthFromJanuaryCorrected()
    ensures AvailableDate(Corrected, Date(2022, 0, 15), PreviousMonth, OnlyDecember15(), 365) == Date(2021, 11, 16)
    ensures OnKeyDown(Corrected, At(Date(2022, 0, 15), false), PageUp, false, OnlyDecember15())
            == Step(At(Date(2021, 11, 16), true), [ChangeMonth(12, 2021, 16)])
  {
    var raw := RawTarget(Date(2022, 0, 15), PreviousMonth);
    assert raw == Date(2021, 11, 15);
    var next := Advance(raw, PreviousMonth);
    assert next == Date(2021, 11, 16);
    assert !OutOfRange(Corrected, Date(2022, 0, 15), PreviousMonth, 365, next);
    assert Search(Corrected, Date(2022, 0, 15), PreviousMonth, OnlyDecember15(), 365, next) == next;
  }

  /** Choosing June while showing 10 March of year 50: as written the picker jumps to 1950. */
  lemma MonthSelectInYear50()
    ensures MonthSelectTargetAsWritten(Date(50, 2, 10), 6) == Date(1950, 5, 10)
    ensures MonthSelectTarget(Date(50, 2, 10), 6) == Date(50, 5, 10)
    ensures OnMonthSelect(AsWritten, At(Date(50, 2, 10), false), 6)
            == Step(At(Date(1950, 5, 10), false), [ChangeMonth(6, 1950, 10)])
    ensures OnMonthSelect(Corrected, At(Date(50, 2, 10), false), 6)
            == Step(At(Date(50, 5, 10), false), [ChangeMonth(6, 50, 10)])
  {
  }
}

=== FILE: wrappers.dfy ===
/** Optional values, used for the picker's hovered date and for optional inputs. */
module Wrappers {

  datatype Option<+T> = None | Some(value: T)
}
